=== FILE: README.md ===
# ytmusic-xiv RPC bridge in Dafny

This project models the protocol core of an RPC bridge. The bridge lets a game
plugin (C#, Dalamud) call a YouTube Music browser extension over four hops:

1. The plugin's gRPC channel (`NetMQChannelBase`) keeps a table of pending
   calls keyed by transaction id (`tx_id`). It sends JSON envelopes
   `{message, tx_id, method}` over a socket, and routes every inbound envelope
   to the call its `tx_id` names.
2. A named-pipe relay (`NamedPipeRPCHost`) copies raw bytes between stdio and
   a named pipe. It reopens the pipe for as long as a pump asks for a retry.
3. A native-messaging host (`XivYtMusicRPCHost`) turns Chrome's stdio framing
   into socket frames and back. That framing is a 32-bit little-endian length
   followed by the payload.
4. The extension's background page (`handleMsg`) runs the named handler and
   posts `{tx_id, message}` replies. For streams it keeps a subscription table.
   A content script builds `html>:nth-child(i)>…` selector paths for queue
   play buttons.

Each part is one module of pure functions over immutable datatypes. The
environment enters as an explicit input: the bytes a stream yields, the
outcome of each read or write, the result a handler produces, and the element
tree of the page. Exceptions that the source does not catch are modelled as
`Err`/`Faulted` outcomes.

| file | module | models |
|---|---|---|
| `common.dfy` | `Common` | `Option`, `Result`, bytes, the envelope, `findIndex` |
| `framing.dfy` | `Framing` | XivYtMusicRPCHost/XivYtMusicRPCHost/Program.cs |
| `pipe_relay.dfy` | `PipeRelay` | NamedPipeRPCHost/NamedPipeRPCHost/Program.cs |
| `channel_client.dfy` | `ChannelClient` | YtMusicPlugin/YtMusicPlugin/NetMQChannelBase.cs |
| `background_dispatch.dfy` | `BackgroundDispatch` | xiv-ytmusic-ext/src/background/index.ts |
| `content_script.dfy` | `ContentScript` | xiv-ytmusic-ext/src/contentScript/index.ts |
| `bridge.dfy` | `Bridge` | the channel and `handleMsg` composed end to end |

The model follows the code where it departs from the behaviour one would
expect of an RPC client:

- A unary call's table entry is not removed when its reply arrives, unlike
  the unary dispose action, which removes it. A second reply under that id
  then throws on the poller. See Findings. Runs are stated for the code as
  written (`ChannelClient.AsWritten`) and, as the corrected half of that
  finding, for a poller that removes the entry (`ChannelClient.WithRemoval`).
- Disposing a streaming call twice enqueues two unsubscribe envelopes, not
  one per stream.
- Shutdown disposes the outgoing queue right after enqueueing the unsubscribe
  envelopes. Those envelopes may never be sent: only a drain that runs before
  the disposal sends them (`DrainOutgoing`).
- A stream reader keeps only the latest item. An item that is not read before
  the next one arrives is overwritten.
- A method is only served when it carries the `/YtMusic/` prefix, which gRPC
  full method names have.

## Model

| member | source | states |
|---|---|---|
| Common.FindIndex | xiv-ytmusic-ext/src/contentScript/index.ts:59 | `findIndex` returns the first index whose predicate holds, or -1 exactly when none does |
| Framing.UInt32Bytes | XivYtMusicRPCHost/XivYtMusicRPCHost/Program.cs:69 | `BitConverter.GetBytes((uint) n)` gives four bytes that are the base-256 digits of `n`, lowest first |
| Framing.UInt32Value | XivYtMusicRPCHost/XivYtMusicRPCHost/Program.cs:45 | `BitConverter.ToUInt32` gives a `uint` whose base-256 digits, lowest first, are the four bytes read |
| Framing.UInt32RoundTrip | XivYtMusicRPCHost/XivYtMusicRPCHost/Program.cs:69 | reading back the little-endian bytes `BitConverter.GetBytes((uint) n)` writes gives `n` |
| Framing.UInt32Unique | XivYtMusicRPCHost/XivYtMusicRPCHost/Program.cs:45 | any four bytes are the encoding of the `uint` `BitConverter.ToUInt32` reads from them, so a prefix determines the length and the length the prefix |
| Framing.Encode | XivYtMusicRPCHost/XivYtMusicRPCHost/Program.cs:69-73 | a frame's encoding is 4 + n bytes: a prefix that reads back as the body length n, then exactly the body |
| Framing.CompleteFrameIff | XivYtMusicRPCHost/XivYtMusicRPCHost/Program.cs:34-50 | the reader finds a whole frame at the front of stdin exactly when the bytes there begin with some frame's encoding |
| Framing.ReadWriteForever | XivYtMusicRPCHost/XivYtMusicRPCHost/Program.cs:29-63 | the frames sent to the socket are, in order, encodings at the front of stdin. It stops on a cancellation after that many frames, or on end of stream / disposal with no whole frame left, so no partial frame is forwarded. It faults exactly when the next declared length is beyond the largest byte array: a clean end of stream never leaves such a length at the front |
| Framing.ReaderStep | XivYtMusicRPCHost/XivYtMusicRPCHost/Program.cs:34-61 | with no cancellation pending, one turn reads exactly four bytes, takes them as the little-endian length, reads exactly that many bytes, forwards them as one frame and continues on the rest |
| Framing.ReaderStops | XivYtMusicRPCHost/XivYtMusicRPCHost/Program.cs:36-38 | when stdin does not begin with a whole frame, the reader forwards nothing more |
| Framing.DecodeEncodeAll | XivYtMusicRPCHost/XivYtMusicRPCHost/Program.cs:45-61 | round trip: reading the concatenated encodings of any frames forwards exactly those frames, then stops at end of stream |
| Framing.DecodeWithShortTail | XivYtMusicRPCHost/XivYtMusicRPCHost/Program.cs:52-54 | a truncated frame after whole frames, cut in the prefix or in the body, is never forwarded; only the whole frames before it are |
| Framing.DecodeMonotone | XivYtMusicRPCHost/XivYtMusicRPCHost/Program.cs:29-62 | the frames forwarded from a prefix of the stream are a prefix of the frames forwarded once more bytes have arrived |
| Framing.WriteReadForever | XivYtMusicRPCHost/XivYtMusicRPCHost/Program.cs:65-80 | a frame counts as delivered only when both its prefix and body writes succeed. A disposed stdout ends the pump, possibly after the prefix alone, and stdout holds exactly the delivered encodings plus that dangling prefix. It never delivers more frames than the cancellation point allows, and it stops for cancellation exactly when that many frames are delivered |
| Framing.WriterOutputDecodes | XivYtMusicRPCHost/XivYtMusicRPCHost/Program.cs:69-78 | decoding whatever the writer put on stdout yields exactly the delivered frames. A dangling prefix surfaces only when its frame was empty |
| PipeRelay.Pump | NamedPipeRPCHost/NamedPipeRPCHost/Program.cs:29-53 | the shared loop forwards one chunk per turn until a turn completes the task; it is still running exactly when every turn forwarded |
| PipeRelay.ReadWriteForever | NamedPipeRPCHost/NamedPipeRPCHost/Program.cs:26-55 | forwards exactly the bytes each read returned. It returns false iff stdin hit end of stream or was disposed, and true iff a pipe write threw `IOException`/`ObjectDisposedException`. It faults on an uncaught read exception and requests cancellation only at end of stream. A pipe write has no canceled outcome, since it is given no token |
| PipeRelay.WriteReadForever | NamedPipeRPCHost/NamedPipeRPCHost/Program.cs:57-85 | returns true iff the pipe read failed, was disposed or hit end of stream, and false iff stdout was disposed. It faults on a canceled read or an uncaught stdout exception and requests cancellation only at pipe end of stream |
| PipeRelay.ForwardedIsConsumed | NamedPipeRPCHost/NamedPipeRPCHost/Program.cs:28-45 | every forwarded chunk has 1 to 4096 bytes, and their concatenation equals the bytes stdin delivered in those turns |
| PipeRelay.FailedWriteDropsChunk | NamedPipeRPCHost/NamedPipeRPCHost/Program.cs:43-52 | when a pipe write fails, the chunk just taken from stdin is consumed but not forwarded |
| PipeRelay.Relay | NamedPipeRPCHost/NamedPipeRPCHost/Program.cs:8-22 | each further session starts only after one where no pump faulted and at least one returned true. The relay exits when both returned false and crashes when a pump faulted |
| PipeRelay.NextSessionIff | NamedPipeRPCHost/NamedPipeRPCHost/Program.cs:22 | session k+1 starts iff sessions 0..k all ended with `rwTask.Result \|\| wrTask.Result` and no fault |
| PipeRelay.RetryWinsOverStdinEof | NamedPipeRPCHost/NamedPipeRPCHost/Program.cs:14-22 | stdin end of stream in one pump does not stop the relay when the other pump reports a pipe failure; another session starts |
| ChannelClient.ReceiveAll | YtMusicPlugin/YtMusicPlugin/NetMQChannelBase.cs:150-166 | after items arrive in order, `Current` is the last one and one waiter per item has completed with true, including the one a waiting `MoveNext` took. Earlier items are no longer held |
| ChannelClient.Receive | YtMusicPlugin/YtMusicPlugin/NetMQChannelBase.cs:161-166 | receiving an item makes it `Current` and completes with true the waiter a blocked `MoveNext` holds. A fresh waiter is left pending, and every waiter already completed stays completed |
| ChannelClient.MoveNextOutcome | YtMusicPlugin/YtMusicPlugin/NetMQChannelBase.cs:151-155 | a `MoveNext` never completes with false: the reader has no end-of-stream signal |
| ChannelClient.AsyncUnaryCall | YtMusicPlugin/YtMusicPlugin/NetMQChannelBase.cs:124-148 | a new id gets exactly one new table entry, a pending task, and exactly one enqueued envelope with `message`, `tx_id` and `method`. A taken id throws before anything is enqueued |
| ChannelClient.AsyncServerStreamingCall | YtMusicPlugin/YtMusicPlugin/NetMQChannelBase.cs:171-187 | same as the unary call, with a fresh stream reader as the entry |
| ChannelClient.Dispatch | YtMusicPlugin/YtMusicPlugin/NetMQChannelBase.cs:38-87 | as written: a missing message throws and an unregistered id is dropped unchanged. A pending unary entry is completed but stays in the table, and a non-pending one throws. A stream reader receives the item and any other entry throws. Other calls and the queue are untouched |
| ChannelClient.DispatchCorrected | YtMusicPlugin/YtMusicPlugin/NetMQChannelBase.cs:54-72 | corrected half of the finding: as `Dispatch`, except that completing a unary entry also removes it from the table |
| ChannelClient.CancelUnary | YtMusicPlugin/YtMusicPlugin/NetMQChannelBase.cs:143-146 | the unary dispose action removes just that entry, cancels a pending task, leaves a completed one as it is, and sends nothing |
| ChannelClient.DisposeStream | YtMusicPlugin/YtMusicPlugin/NetMQChannelBase.cs:194-200 | the stream dispose action enqueues exactly the bare-`tx_id` envelope and removes just that entry |
| ChannelClient.SettleEntries | YtMusicPlugin/YtMusicPlugin/NetMQChannelBase.cs:94-112 | visiting the entries cancels each pending unary task and enqueues exactly one unsubscribe per stream entry, and only those. It succeeds iff no entry is of another type |
| ChannelClient.Shutdown | YtMusicPlugin/YtMusicPlugin/NetMQChannelBase.cs:93-117 | shutdown empties the table and disposes the queue. Every pending unary task becomes canceled, and exactly one unsubscribe per stream entry is appended. It throws iff some entry is of another type |
| ChannelClient.DrainOutgoing | YtMusicPlugin/YtMusicPlugin/NetMQChannelBase.cs:32-36 | the drain sends every queued envelope in queue order and leaves the queue empty. After the queue's disposal it sends nothing |
| ChannelClient.CancelThenReplyDropped | YtMusicPlugin/YtMusicPlugin/NetMQChannelBase.cs:143-146 | a reply arriving after a unary call was canceled finds no entry, is dropped, and the task stays canceled |
| ChannelClient.DisposeThenItemDropped | YtMusicPlugin/YtMusicPlugin/NetMQChannelBase.cs:194-200 | an item arriving after a stream was disposed is dropped, and the unsubscribe is already queued |
| ChannelClient.DuplicateReplyFaults | YtMusicPlugin/YtMusicPlugin/NetMQChannelBase.cs:56-72 | as written, a second reply under a completed unary call's id throws on the poller |
| ChannelClient.CorrectedDuplicateReplyDropped | YtMusicPlugin/YtMusicPlugin/NetMQChannelBase.cs:54-72 | with removal on completion, a second reply is dropped and the first result stands |
| ChannelClient.Step | YtMusicPlugin/YtMusicPlugin/NetMQChannelBase.cs:38-200 | one caller or poller operation never forgets an issued call or the queue's disposal. A caller enqueues at most one envelope, and the poller enqueues none |
| ChannelClient.Run | YtMusicPlugin/YtMusicPlugin/NetMQChannelBase.cs:38-200 | over any run the queue only grows, by at most one envelope per operation, and no issued call is forgotten |
| ChannelClient.InboundKept | YtMusicPlugin/YtMusicPlugin/NetMQChannelBase.cs:54-84 | with either dispatch, one inbound envelope keeps every call unary or streaming and every registered unary task uncanceled. It throws only on a missing message or a second reply |
| ChannelClient.StepKept | YtMusicPlugin/YtMusicPlugin/NetMQChannelBase.cs:54-84 | every operation, with the code as written, keeps that invariant and throws only `DuplicateTxId`, `MissingMessage` or `AlreadyCompleted` |
| ChannelClient.RunKept | YtMusicPlugin/YtMusicPlugin/NetMQChannelBase.cs:82-84 | over any run with the code as written the invariant holds, so the poller's "other type" exception is unreachable |
| ChannelClient.StepSound | YtMusicPlugin/YtMusicPlugin/NetMQChannelBase.cs:54-84 | corrected half of the finding: with a poller that removes completed entries, every operation keeps registered unary entries pending, and throws only on a reused id or a payload-less envelope |
| ChannelClient.InboundSound | YtMusicPlugin/YtMusicPlugin/NetMQChannelBase.cs:54-84 | corrected half of the finding: the corrected dispatch keeps registered unary entries pending and can only fail on a missing message |
| ChannelClient.RunSound | YtMusicPlugin/YtMusicPlugin/NetMQChannelBase.cs:54-84 | corrected half of the finding: over any run with a poller that removes completed entries, a second reply can no longer throw |
| ChannelClient.ShutdownAfterRun | YtMusicPlugin/YtMusicPlugin/NetMQChannelBase.cs:109-111 | shutdown of any channel reached from a fresh one never throws, with the code as written and with the corrected dispatch |
| ChannelClient.DeliveriesToUnknownIgnored | YtMusicPlugin/YtMusicPlugin/NetMQChannelBase.cs:54 | with either dispatch, any number of envelopes for an id not in the table leave the channel unchanged |
| ChannelClient.UnaryResolvesOnce | YtMusicPlugin/YtMusicPlugin/NetMQChannelBase.cs:54-72 | as written, one reply completes a pending unary call and leaves it registered. With any further reply the run throws `AlreadyCompleted` |
| ChannelClient.UnaryResolvesOnceCorrected | YtMusicPlugin/YtMusicPlugin/NetMQChannelBase.cs:54-72 | corrected half of the finding: however many replies arrive, the first resolves the call, removes it from the table, and the rest change nothing |
| ChannelClient.StreamReceivesInOrder | YtMusicPlugin/YtMusicPlugin/NetMQChannelBase.cs:73-81 | with either dispatch, items for a live stream leave its reader as if received one after another: the last item is `Current` and one waiter is released per item |
| BackgroundDispatch.HandlerName | xiv-ytmusic-ext/src/background/index.ts:461-463 | a name exists iff the method starts with `/YtMusic/`, and the prefix followed by the name is the method |
| BackgroundDispatch.HandleMsg | xiv-ytmusic-ext/src/background/index.ts:459-495 | unprefixed methods are ignored and unknown handlers or rejected promises post nothing. A unary result posts exactly one `{tx_id, message}` and changes no table. A stream result registers a fresh live handle under `tx_id`. A bare `{tx_id}` deletes a known subscription and kills its handle, or does nothing. All of it keeps the table consistent |
| BackgroundDispatch.EmissionsInOrder | xiv-ytmusic-ext/src/background/index.ts:470-480 | a live subscription posts every emitted value, in emission order, under its id |
| BackgroundDispatch.UnsubscribedIsSilent | xiv-ytmusic-ext/src/background/index.ts:488-494 | after unsubscription an observable's emissions post nothing |
| BackgroundDispatch.UnsubscribeIdempotent | xiv-ytmusic-ext/src/background/index.ts:488-494 | a repeated bare `{tx_id}` is a no-op |
| BackgroundDispatch.ResubscribeLeaks | xiv-ytmusic-ext/src/background/index.ts:479 | subscribing twice under one id overwrites the entry without unsubscribing. After the id is unsubscribed, the first observable still posts under it |
| BackgroundDispatch.StateLookup | xiv-ytmusic-ext/src/background/index.ts:20-27 | a number has a state iff it is -1, 0, 1, 2, 3 or 5, so 4 has none |
| BackgroundDispatch.StateLookupBijective | xiv-ytmusic-ext/src/background/index.ts:20-27 | `stateLookup` maps the six keys one-to-one onto UNSTARTED, ENDED, PLAYING, PAUSED, BUFFERING and VIDEO_QUEUED |
| BackgroundDispatch.CurrentIndex | xiv-ytmusic-ext/src/background/index.ts:226-234 | `currentIndex` is the first entry that is selected itself or through its inner queue item, and undefined exactly when none is |
| ContentScript.MyIndex | xiv-ytmusic-ext/src/contentScript/index.ts:31-42 | 0 without a parent, else the 1-based first position among the parent's children, else -1 exactly when the element is not among them |
| ContentScript.GetMyIndex | xiv-ytmusic-ext/src/contentScript/index.ts:31-42 | the index loop computes exactly that position |
| ContentScript.LinkedIndexPositive | xiv-ytmusic-ext/src/contentScript/index.ts:35-39 | in a page where every element is among its parent's children, the index is never -1 |
| ContentScript.IntToString | xiv-ytmusic-ext/src/contentScript/index.ts:28 | an integer's numeral is digits with a leading minus exactly for negatives, `"0"` exactly for zero, and no leading zero otherwise |
| ContentScript.IntToStringRoundTrip | xiv-ytmusic-ext/src/contentScript/index.ts:28 | the index numeral in a path segment reads back as the index |
| ContentScript.Path | xiv-ytmusic-ext/src/contentScript/index.ts:23-29 | `''` for null. Every element's path starts with `html`, and it is exactly `html` iff the element has no parent |
| ContentScript.PathRendersIndices | xiv-ytmusic-ext/src/contentScript/index.ts:23-29 | a path is `html` followed by one `>:nth-child(i)` step per ancestor, with that ancestor's index |
| ContentScript.PathCountsAncestors | xiv-ytmusic-ext/src/contentScript/index.ts:28 | a path holds exactly one `>` per ancestor step |
| ContentScript.PathLocatesElement | xiv-ytmusic-ext/src/contentScript/index.ts:28-39 | in a consistent page, following a path's `:nth-child` steps from the top of the chain leads back to the element |
| ContentScript.IndexOfCurrentQueueChild | xiv-ytmusic-ext/src/contentScript/index.ts:55-61 | undefined iff there is no child list. Otherwise it is the first child with `selected`, or -1 exactly when there is none |
| ContentScript.QueueIndicesAgree | xiv-ytmusic-ext/src/contentScript/index.ts:55-61 | when no inner queue item carries the selection, the content script and the background page agree on the current position |
| ContentScript.PlayInQueue | xiv-ytmusic-ext/src/contentScript/index.ts:81-90 | the callback is called iff the child list exists, item `i mod 2^32` exists and it has a play button. It then gets `sendTapTo` with one path, that button's step indices spelled out, and in a consistent page that path leads from the top back to the button |
| ContentScript.PlayInQueueWraps | xiv-ytmusic-ext/src/contentScript/index.ts:83 | `item(i)` and `item(i + 2^32)` pick the same child |
| Bridge.UnaryRoundTrip | xiv-ytmusic-ext/src/background/index.ts:481-487 | a unary request enqueued by the channel reaches the handler named by its method, and the reply completes the caller's task with the handler's value. As written the entry stays in the table |
| Bridge.UndefinedReplyFaults | YtMusicPlugin/YtMusicPlugin/NetMQChannelBase.cs:49 | a handler resolving to `undefined` posts a reply without `message`, on which the channel's poller throws |
| Bridge.StreamRoundTrip | xiv-ytmusic-ext/src/background/index.ts:470-480 | a streaming request subscribes under its id and every emitted value is posted under it, in order. The channel's reader ends as if it had received them one after another: the last value is current and one waiter was released per value |
| Bridge.DisposeStopsEmissions | YtMusicPlugin/YtMusicPlugin/NetMQChannelBase.cs:194-200 | the unsubscribe a stream's disposal enqueues removes the extension's subscription, after which its observable posts nothing |

## Left out

- Sockets, named pipes, stdio, the NetMQ poller, `Task.WhenAll` scheduling and async interleaving are not modelled as concurrency. Each pump or handler is a function of the outcomes its environment delivers. The relays are shown to forward bytes unchanged, and `Bridge` composes the two ends directly.
- JSON text, `JsonFormatter`/`JsonParser`, protobuf and reflection are left out. An envelope is a datatype and a payload is opaque text. A message that is not a JSON object, an unparsable payload and a missing `tx_id` would all throw on the poller; they are not modelled.
- Transaction ids come from `Guid.NewGuid()`/`crypto.randomUUID()`, which is randomness, so the id is an input.
- `MoveNext`'s cancellation token and `WaitAsync` are not modelled; `MoveNextOutcome` states only which waiter has completed.
- ContentScript.IntToString: covers integer decimal numerals only. JavaScript's exponent notation for magnitudes of 1e21 and above is not modelled; child indices never reach it.
- Framing.WriteReadForever: a cancellation that arrives while the pump awaits `ReceiveFrameBytesAsync`, or during a stdout write, throws `OperationCanceledException` out of that await. The model has cancellation observed only by the loop guard, and an `IOException` from stdout is not an outcome.
- Framing.ReadWriteForever: an `IOException` or a cancellation thrown by a stdin read is not an outcome. Only end of stream, disposal and the oversized-length allocation failure are modelled.
- PipeRelay.WriteReadForever: partial writes and the buffer reuse between turns are not modelled. A write either takes the whole chunk or throws.
- ChannelClient.Shutdown: the state left behind when an entry of another type throws midway is not modelled, because `ShutdownAfterRun` shows that case unreachable, with the code as written. The dictionary's enumeration order is an input.
- ChannelClient.DrainOutgoing: the drain runs on the poller thread and shutdown on the disposing thread. The model takes each drain as wholly before or wholly after the queue's disposal, and does not decide which happens, so whether shutdown's unsubscribes reach the wire is left open.
- ChannelClient.DisposeStream, ChannelClient.AsyncUnaryCall, ChannelClient.AsyncServerStreamingCall: enqueueing on a queue that shutdown already disposed is modelled as an append the drain never sends. None of the three checks `disposed`. Whether NetMQ throws there is not modelled.
- BackgroundDispatch.HandleMsg: a unary reply is posted as soon as the handler's promise settles. Its interleaving with later messages during the `await` is not modelled. The service object is a parameter, so handler names that hit `Object.prototype` members are covered only through it.
- BackgroundDispatch.CurrentIndex: models the rule of `GetQueueState` (descendant selector, `\|\| false`). The queue-state subscription's copy of the rule uses a child combinator, which is not modelled separately.
- ContentScript.PlayInQueue: the index is an integer. The conversion of non-integer numbers to `unsigned long` and the callback's return value are not modelled. `playButtonOf` is a given map from element to its first play-button descendant.
- The `tabCtx*` page functions, `getOrCreateYtmTab`, `waitForElem`, `unaryYtmCall` and the port plumbing of `streamYtmSubscribe` need Chrome and the live page, so their results are the service parameter.
- MainWindow.cs (ImGui drawing, HTTP textures, caches), Plugin.cs, YtMusicState.cs, Configuration.cs and the build configuration files hold UI, wiring and persistence, not protocol logic. MainWindow issues unary calls without ever disposing them, so with the code as written their table entries stay for the channel's lifetime. That consequence follows from `ChannelClient.Dispatch` but is not stated for MainWindow itself.

## Findings

| source | as written | input that shows it | evidently intended | confidence | as-written member | corrected member |
|---|---|---|---|---|---|---|
| YtMusicPlugin/YtMusicPlugin/NetMQChannelBase.cs:54-72 | completing a unary call's `TaskCompletionSource` leaves its entry in `transactionHandlers` | a unary call under id A, then two envelopes `{tx_id: A, message}`: the second reaches `SetResult` on a completed source, which throws on the poller; entries of calls never disposed also accumulate | the entry is removed when its reply completes it, so later replies under that id are dropped | medium, not executed | ChannelClient.DuplicateReplyFaults | ChannelClient.DispatchCorrected |

=== FILE: background_dispatch.dfy ===
/**
 The browser extension's server side (xiv-ytmusic-ext/src/background/index.ts):
 `handleMsg` routes each envelope from the native host either to a handler of
 the YtMusic service or, for a bare `{tx_id}`, to the subscription table;
 plus the `stateLookup` table and the rule for the queue's current index.

 The service's handlers run against the live page and are a parameter here:
 a function from handler name and request to what the call produced.
 Observables are represented by subscription handles; `Emit` is one value
 pushed by the observable behind a handle.
 */
module BackgroundDispatch {
  import opened Common

  /** The prefix every method name of the YtMusic service carries. */
  const MethodPrefix: string := "/YtMusic/"

  /** What calling a handler produced. */
  datatype CallResult =
    | UnaryResolved(value: Option<Payload>)  // the awaited promise's value; `undefined` is None
    | UnaryRejected                          // the promise rejected
    | StreamResult                           // an Observable

  /**
   `ytMusicServer`: the result of calling the named handler with the request,
   or None when the object has no such handler.
   */
  type Service = (string, Option<Payload>) -> Option<CallResult>

  /**
   The background page's state: `subscriptions` maps a transaction id to the
   handle of its subscription, `live` maps each handle not yet unsubscribed to
   the transaction id its observer posts under, and `posted` is every envelope
   sent back to the native host, in order.
   */
  datatype Server = Server(subscriptions: map<TxId, nat>, live: map<nat, TxId>, nextHandle: nat, posted: seq<Envelope>)

  /** Ways `handleMsg`'s promise rejects; nothing is posted and nothing else happens. */
  datatype Fault =
    | NotAFunction     // the name is not a handler of the service
    | HandlerRejected  // the awaited unary promise rejected

  const Initial: Server := Server(map[], map[], 0, [])

  /** Every subscription is live and posts under its own id; handles are allocated in increasing order. */
  predicate Consistent(s: Server) {
    && (forall tx :: tx in s.subscriptions ==> s.subscriptions[tx] in s.live && s.live[s.subscriptions[tx]] == tx)
    && (forall h :: h in s.live ==> h < s.nextHandle)
  }

  /** The handler name a method string addresses: the method with the prefix removed. */
  function HandlerName(fullName: string): (r: Option<string>)
    ensures r.Some? <==> MethodPrefix <= fullName
    ensures r.Some? ==> MethodPrefix + r.value == fullName
  {
    if MethodPrefix <= fullName then Some(fullName[|MethodPrefix|..]) else None
  }

  /** `handleMsg` for one envelope from the native host. */
  function HandleMsg(s: Server, msg: Envelope, service: Service): (r: Result<Server, Fault>)
    // a method outside the service is ignored
    ensures msg.methodName.Some? && !(MethodPrefix <= msg.methodName.value) ==> r == Ok(s)
    // a call: the outcome depends only on the handler named by the stripped method
    ensures msg.methodName.Some? && MethodPrefix <= msg.methodName.value ==>
              var name := msg.methodName.value[|MethodPrefix|..];
              MethodPrefix + name == msg.methodName.value &&
              match service(name, msg.message)
              case None => r == Err(NotAFunction)
              case Some(UnaryRejected) => r == Err(HandlerRejected)
              case Some(UnaryResolved(v)) =>
                r.Ok? && r.value.posted == s.posted + [Envelope(msg.txId, None, v)] &&
                r.value.subscriptions == s.subscriptions && r.value.live == s.live
              case Some(StreamResult) =>
                r.Ok? && r.value.posted == s.posted &&
                r.value.subscriptions == s.subscriptions[msg.txId := s.nextHandle] &&
                r.value.live == s.live[s.nextHandle := msg.txId] &&
                (Consistent(s) ==> s.nextHandle !in s.live)
    // a bare id: an unknown one is ignored, a known one is deleted and its handle dies
    ensures msg.methodName.None? && msg.txId !in s.subscriptions ==> r == Ok(s)
    ensures msg.methodName.None? && msg.txId in s.subscriptions ==>
              r.Ok? && r.value.posted == s.posted &&
              r.value.subscriptions == s.subscriptions - {msg.txId} &&
              r.value.live == s.live - {s.subscriptions[msg.txId]}
    ensures Consistent(s) && r.Ok? ==> Consistent(r.value)
  {
    match msg.methodName
    case Some(fullName) =>
      (match HandlerName(fullName)
       case None => Ok(s)
       case Some(name) =>
         match service(name, msg.message)
         case None => Err(NotAFunction)
         case Some(UnaryRejected) => Err(HandlerRejected)
         case Some(UnaryResolved(v)) => Ok(s.(posted := s.posted + [Envelope(msg.txId, None, v)]))
         case Some(StreamResult) =>
           assert Consistent(s) ==> s.nextHandle !in s.live;
           Ok(Server(s.subscriptions[msg.txId := s.nextHandle], s.live[s.nextHandle := msg.txId],
                     s.nextHandle + 1, s.posted)))
    case None =>
      if msg.txId !in s.subscriptions then Ok(s)
      else
        var h := s.subscriptions[msg.txId];
        var r := s.(subscriptions := s.subscriptions - {msg.txId}, live := s.live - {h});
        assert Consistent(s) ==> Consistent(r) by {
          if Consistent(s) {
            forall tx | tx in r.subscriptions ensures r.subscriptions[tx] in r.live && r.live[r.subscriptions[tx]] == tx {
              assert s.live[s.subscriptions[tx]] == tx;
            }
          }
        }
        Ok(r)
  }

  /** The observer of handle `h` receiving `value`: posted under its id while the handle is live. */
  function Emit(s: Server, h: nat, value: Payload): (r: Server)
    ensures h in s.live ==> r.posted == s.posted + [Envelope(s.live[h], None, Some(value))]
    ensures h !in s.live ==> r == s
    ensures r.subscriptions == s.subscriptions && r.live == s.live && r.nextHandle == s.nextHandle
  {
    if h in s.live then s.(posted := s.posted + [Reply(s.live[h], value)]) else s
  }

  /** The observable behind handle `h` emitting `values` one after another. */
  function EmitAll(s: Server, h: nat, values: seq<Payload>): Server
    decreases |values|
  {
    if |values| == 0 then s else EmitAll(Emit(s, h, values[0]), h, values[1..])
  }

  /** The envelopes posted for `values` emitted under `tx`. */
  function Replies(tx: TxId, values: seq<Payload>): (r: seq<Envelope>)
    ensures |r| == |values|
    ensures forall i :: 0 <= i < |values| ==> r[i] == Envelope(tx, None, Some(values[i]))
  {
    seq(|values|, i requires 0 <= i < |values| => Reply(tx, values[i]))
  }

  /** A live subscription posts every emitted value, in emission order, under its id. */
  lemma {:induction false} EmissionsInOrder(s: Server, h: nat, values: seq<Payload>)
    requires h in s.live
    ensures EmitAll(s, h, values).posted == s.posted + Replies(s.live[h], values)
    ensures EmitAll(s, h, values).live == s.live && EmitAll(s, h, values).subscriptions == s.subscriptions
    decreases |values|
  {
    if |values| > 0 {
      var s1 := Emit(s, h, values[0]);
      EmissionsInOrder(s1, h, values[1..]);
      assert Replies(s.live[h], values) == [Reply(s.live[h], values[0])] + Replies(s.live[h], values[1..]);
    }
  }

  /** Once unsubscribed, a subscription's observable posts nothing, however much it emits. */
  lemma {:induction false} UnsubscribedIsSilent(s: Server, h: nat, values: seq<Payload>)
    requires h !in s.live
    ensures EmitAll(s, h, values) == s
    decreases |values|
  {
    if |values| > 0 {
      UnsubscribedIsSilent(Emit(s, h, values[0]), h, values[1..]);
    }
  }

  /** A second bare `{tx_id}` finds nothing to delete: unsubscription is idempotent. */
  lemma UnsubscribeIdempotent(s: Server, tx: TxId, service: Service)
    ensures var u := Envelope(tx, None, None);
            var once := HandleMsg(s, u, service);
            once.Ok? && HandleMsg(once.value, u, service) == once
  {
  }

  /**
   Subscribing twice under one id overwrites the table entry without
   unsubscribing the first subscription: after the id is unsubscribed, the first
   observable still posts under that id.
   */
  lemma ResubscribeLeaks(s: Server, tx: TxId, fullName: string, request: Option<Payload>, service: Service, value: Payload)
    requires Consistent(s)
    requires tx in s.subscriptions
    requires MethodPrefix <= fullName && service(fullName[|MethodPrefix|..], request) == Some(StreamResult)
    ensures var again := HandleMsg(s, Envelope(tx, Some(fullName), request), service).value;
            var gone := HandleMsg(again, Envelope(tx, None, None), service).value;
            s.subscriptions[tx] in gone.live &&
            Emit(gone, s.subscriptions[tx], value).posted == s.posted + [Envelope(tx, None, Some(value))]
  {
    var again := HandleMsg(s, Envelope(tx, Some(fullName), request), service).value;
    assert again.subscriptions[tx] == s.nextHandle;
    assert s.subscriptions[tx] < s.nextHandle;
  }

  // ---------------------------------------------------------------------------
  // Pure helpers
  // ---------------------------------------------------------------------------

  /** `PlayerStateEnum`, the states `stateLookup` can produce. */
  datatype PlayerState = Unstarted | Ended | Playing | Paused | Buffering | VideoQueued

  /** `stateLookup`: the YouTube player's numeric state, where it has a name. */
  function StateLookup(n: int): (r: Option<PlayerState>)
    ensures r.Some? <==> n in {-1, 0, 1, 2, 3, 5}
  {
    match n
    case -1 => Some(Unstarted)
    case 0 => Some(Ended)
    case 1 => Some(Playing)
    case 2 => Some(Paused)
    case 3 => Some(Buffering)
    case 5 => Some(VideoQueued)
    case _ => None
  }

  /** The player's number for each named state. */
  function StateCode(p: PlayerState): int {
    match p
    case Unstarted => -1
    case Ended => 0
    case Playing => 1
    case Paused => 2
    case Buffering => 3
    case VideoQueued => 5
  }

  /** `stateLookup` is a bijection between its six keys and the six states. */
  lemma StateLookupBijective(n: int, p: PlayerState)
    ensures StateLookup(StateCode(p)) == Some(p)
    ensures StateLookup(n) == Some(p) <==> n == StateCode(p)
  {
  }

  /**
   One child of the queue's `#contents`: its own `selected` attribute, and the
   `selected` attribute of the first `ytmusic-player-queue-item` under its
   `#primary-renderer`, when there is one.
   */
  datatype QueueEntry = QueueEntry(selected: bool, primaryItemSelected: Option<bool>)

  /** `elementIsSelected`. */
  predicate IsSelected(e: QueueEntry) {
    e.selected || e.primaryItemSelected == Some(true)
  }

  /** `currentIndex` of the queue state: the first selected entry, or `undefined`. */
  function CurrentIndex(entries: seq<QueueEntry>): (r: Option<nat>)
    ensures r.Some? ==> r.value < |entries| && IsSelected(entries[r.value])
    ensures r.Some? ==> forall j :: 0 <= j < r.value ==> !IsSelected(entries[j])
    ensures r.None? <==> forall j :: 0 <= j < |entries| ==> !IsSelected(entries[j])
  {
    var flags := seq(|entries|, j requires 0 <= j < |entries| => IsSelected(entries[j]));
    assert forall j :: 0 <= j < |entries| ==> flags[j] == IsSelected(entries[j]);
    var i := FindIndex(flags);
    if i == -1 then None else Some(i)
  }
}

=== FILE: bridge.dfy ===
/**
 The two ends of the bridge composed: envelopes the plugin's channel enqueues
 are handled by the extension's `handleMsg`, and the envelopes the extension
 posts are dispatched back by the channel. The relays in between forward
 frames unchanged (see `Framing` and `PipeRelay`), so here an envelope sent
 is an envelope received.
 */
module Bridge {
  import opened Common
  import ChannelClient
  import BackgroundDispatch

  /**
   A unary call: the request the channel enqueues reaches the handler named
   by the method, and the reply the handler's value produces completes the
   caller's task with that value. The entry stays in the table.
   */
  lemma {:induction false} UnaryRoundTrip(ch: ChannelClient.Channel, s: BackgroundDispatch.Server, id: TxId, name: string,
                       request: Payload, service: BackgroundDispatch.Service, value: Payload)
    requires id !in ChannelClient.Table(ch)
    requires service(name, Some(request)) == Some(BackgroundDispatch.UnaryResolved(Some(value)))
    ensures var c1 := ChannelClient.AsyncUnaryCall(ch, id, BackgroundDispatch.MethodPrefix + name, request).value;
            var sent := c1.outgoing[|c1.outgoing| - 1];
            var s1 := BackgroundDispatch.HandleMsg(s, sent, service);
            s1.Ok? && |s1.value.posted| == |s.posted| + 1 &&
            var c2 := ChannelClient.Dispatch(c1, s1.value.posted[|s1.value.posted| - 1]);
            c2.Ok? && id in ChannelClient.Table(c2.value) &&
            ChannelClient.Table(c2.value)[id] == ChannelClient.UnaryHandler(ChannelClient.Completed(value))
  {
    var full := BackgroundDispatch.MethodPrefix + name;
    var c1 := ChannelClient.AsyncUnaryCall(ch, id, full, request).value;
    assert full[|BackgroundDispatch.MethodPrefix|..] == name;
    assert ChannelClient.Table(c1)[id] == ChannelClient.UnaryHandler(ChannelClient.Pending);
  }

  /**
   A handler whose promise resolves to `undefined` posts a reply without
   `message`, and the channel's poller throws on it.
   */
  lemma UndefinedReplyFaults(ch: ChannelClient.Channel, s: BackgroundDispatch.Server, id: TxId, name: string,
                             request: Payload, service: BackgroundDispatch.Service)
    requires id !in ChannelClient.Table(ch)
    requires service(name, Some(request)) == Some(BackgroundDispatch.UnaryResolved(None))
    ensures var c1 := ChannelClient.AsyncUnaryCall(ch, id, BackgroundDispatch.MethodPrefix + name, request).value;
            var s1 := BackgroundDispatch.HandleMsg(s, c1.outgoing[|c1.outgoing| - 1], service);
            s1.Ok? &&
            ChannelClient.Dispatch(c1, s1.value.posted[|s1.value.posted| - 1]) == Result.Err(ChannelClient.MissingMessage)
  {
    var full := BackgroundDispatch.MethodPrefix + name;
    assert full[|BackgroundDispatch.MethodPrefix|..] == name;
  }

  /**
   A streaming call: the request subscribes the extension under the call's
   id, every value the observable emits is posted under that id, and the
   channel's reader ends as if it had received them in emission order: the
   last value is current and one waiter was released per value.
   */
  lemma {:induction false} StreamRoundTrip(ch: ChannelClient.Channel, s: BackgroundDispatch.Server, id: TxId, name: string,
                        request: Payload, service: BackgroundDispatch.Service, values: seq<Payload>)
    requires id !in ChannelClient.Table(ch)
    requires service(name, Some(request)) == Some(BackgroundDispatch.StreamResult)
    ensures var c1 := ChannelClient.AsyncServerStreamingCall(ch, id, BackgroundDispatch.MethodPrefix + name, request).value;
            var s1 := BackgroundDispatch.HandleMsg(s, c1.outgoing[|c1.outgoing| - 1], service).value;
            BackgroundDispatch.EmitAll(s1, s.nextHandle, values).posted == s1.posted + BackgroundDispatch.Replies(id, values) &&
            (forall i :: 0 <= i < |values| ==>
               ChannelClient.Deliveries(id, values)[i] == ChannelClient.Inbound(BackgroundDispatch.Replies(id, values)[i])) &&
            var c2 := ChannelClient.Run(ChannelClient.AsWritten, c1, ChannelClient.Deliveries(id, values));
            c2.Ok? && id in ChannelClient.Table(c2.value) &&
            ChannelClient.Table(c2.value)[id] == ChannelClient.StreamHandler(ChannelClient.ReceiveSeq(ChannelClient.NewReader, values))
  {
    var full := BackgroundDispatch.MethodPrefix + name;
    assert full[|BackgroundDispatch.MethodPrefix|..] == name;
    var c1 := ChannelClient.AsyncServerStreamingCall(ch, id, full, request).value;
    var s1 := BackgroundDispatch.HandleMsg(s, c1.outgoing[|c1.outgoing| - 1], service).value;
    assert s1.live[s.nextHandle] == id;
    BackgroundDispatch.EmissionsInOrder(s1, s.nextHandle, values);
    ChannelClient.StreamReceivesInOrder(ChannelClient.AsWritten, c1, id, values);
  }

  /**
   Disposing a stream: the unsubscribe the channel enqueues removes the
   extension's subscription, after which its observable posts nothing.
   */
  lemma {:induction false} DisposeStopsEmissions(ch: ChannelClient.Channel, s: BackgroundDispatch.Server, id: TxId,
                              service: BackgroundDispatch.Service, values: seq<Payload>)
    requires id in ChannelClient.Table(ch) && ChannelClient.Table(ch)[id].StreamHandler?
    requires BackgroundDispatch.Consistent(s) && id in s.subscriptions
    ensures var c1 := ChannelClient.DisposeStream(ch, id);
            var s1 := BackgroundDispatch.HandleMsg(s, c1.outgoing[|c1.outgoing| - 1], service).value;
            id !in s1.subscriptions &&
            BackgroundDispatch.EmitAll(s1, s.subscriptions[id], values) == s1
  {
    var c1 := ChannelClient.DisposeStream(ch, id);
    var s1 := BackgroundDispatch.HandleMsg(s, c1.outgoing[|c1.outgoing| - 1], service).value;
    BackgroundDispatch.UnsubscribedIsSilent(s1, s.subscriptions[id], values);
  }
}

=== FILE: channel_client.dfy ===
/**
 The plugin's call invoker (YtMusicPlugin/NetMQChannelBase.cs): unary and
 server-streaming calls are registered in a table keyed by transaction id,
 their request envelopes go through one outgoing queue, and every inbound
 envelope is routed to the table entry its `tx_id` names.

 The table holds one of two kinds of entry, modelled as a tagged variant
 rather than by runtime type inspection; a third variant stands for "any other
 object", for which the source throws, and an invariant shows no operation
 ever stores one.
 */
module ChannelClient {
  import opened Common

  /** The task of a `TaskCompletionSource`. */
  datatype TaskState = Pending | Completed(response: Payload) | Canceled

  /**
   A `ChannelStreamReader`: the latest item (`Current`) and the index of the
   waiter `MoveNext` currently blocks on. Every waiter with a lower index has
   completed with `true`, one per item received.
   */
  datatype StreamReader = StreamReader(current: Option<Payload>, waiter: nat)

  /** What the transaction table maps an id to. */
  datatype Handler =
    | UnaryHandler(task: TaskState)
    | StreamHandler(reader: StreamReader)
    | ForeignHandler

  /** A call as its caller sees it: its handler object and whether the table still holds it. */
  datatype Call = Call(handler: Handler, registered: bool)

  /**
   The channel: every call issued so far, the queue of envelopes waiting to be
   sent, and whether shutdown has disposed the queue and the socket.
   */
  datatype Channel = Channel(calls: map<TxId, Call>, outgoing: seq<Envelope>, disposed: bool)

  /** The exceptions the modelled code can throw. */
  datatype Fault =
    | DuplicateTxId       // `Dictionary.Add` with a key already present
    | MissingMessage      // an inbound envelope without `message`
    | AlreadyCompleted    // `SetResult` on a completion source whose task is no longer pending
    | UnknownHandlerType  // the `ArgumentException` for an entry of any other type

  /** `transactionHandlers`: the registered calls. */
  function Table(ch: Channel): map<TxId, Handler> {
    map id | id in ch.calls && ch.calls[id].registered :: ch.calls[id].handler
  }

  /** A freshly constructed channel. */
  const Fresh: Channel := Channel(map[], [], false)

  /** A `ChannelStreamReader` as constructed: no item yet, waiter 0 pending. */
  const NewReader: StreamReader := StreamReader(None, 0)

  /**
   `ChannelStreamReader.Receive`: the item becomes `Current`, the pending waiter
   completes with `true` and a fresh pending waiter replaces it.
   */
  function Receive(reader: StreamReader, next: Payload): (r: StreamReader)
    ensures r.current == Some(next) && r.waiter == reader.waiter + 1
    ensures MoveNextOutcome(r, reader.waiter) == Some(true)
    ensures MoveNextOutcome(r, r.waiter) == None
    ensures forall w :: MoveNextOutcome(reader, w) == Some(true) ==> MoveNextOutcome(r, w) == Some(true)
  {
    StreamReader(Some(next), reader.waiter + 1)
  }

  /**
   The outcome of the `MoveNext` that took waiter `w`: `None` while it is still
   pending, `Some(true)` once an item has arrived after it was taken. No waiter
   ever completes with `false`: the reader never signals the end of a stream.
   */
  function MoveNextOutcome(reader: StreamReader, w: nat): (r: Option<bool>)
    ensures r != Some(false)
  {
    if w < reader.waiter then Some(true) else None
  }

  /** Items received in order leave the last one current and release one waiter each. */
  lemma {:induction false} ReceiveAll(reader: StreamReader, items: seq<Payload>)
    requires |items| > 0
    ensures var r := ReceiveSeq(reader, items);
            r.current == Some(items[|items| - 1]) && r.waiter == reader.waiter + |items| &&
            MoveNextOutcome(r, reader.waiter) == Some(true)
    decreases |items|
  {
    if |items| > 1 {
      ReceiveAll(Receive(reader, items[0]), items[1..]);
    }
  }

  /** The reader after receiving `items` in order. */
  function ReceiveSeq(reader: StreamReader, items: seq<Payload>): StreamReader
    decreases |items|
  {
    if |items| == 0 then reader else ReceiveSeq(Receive(reader, items[0]), items[1..])
  }

  /** Register a handler under `id` and enqueue the call's request envelope. */
  function Register(ch: Channel, id: TxId, methodName: string, request: Payload, h: Handler): Result<Channel, Fault> {
    if id in Table(ch) then Err(DuplicateTxId)
    else Ok(Channel(ch.calls[id := Call(h, true)], ch.outgoing + [Request(id, methodName, request)], ch.disposed))
  }

  /**
   `AsyncUnaryCall` with the freshly generated `id`: one new table entry and one
   request envelope, or the `Dictionary.Add` failure when `id` is taken (thrown
   before anything is enqueued).
   */
  function AsyncUnaryCall(ch: Channel, id: TxId, methodName: string, request: Payload): (r: Result<Channel, Fault>)
    ensures r.Err? <==> id in Table(ch)
    ensures r.Err? ==> r.error == DuplicateTxId
    ensures r.Ok? ==> Table(r.value) == Table(ch)[id := UnaryHandler(Pending)]
    ensures r.Ok? ==> |Table(r.value)| == |Table(ch)| + 1
    ensures r.Ok? ==> r.value.outgoing == ch.outgoing + [Envelope(id, Some(methodName), Some(request))]
    ensures r.Ok? ==> forall other :: other in ch.calls && other != id ==> other in r.value.calls && r.value.calls[other] == ch.calls[other]
  {
    var r := Register(ch, id, methodName, request, UnaryHandler(Pending));
    assert r.Ok? ==> Table(r.value).Keys == Table(ch).Keys + {id};
    r
  }

  /** `AsyncServerStreamingCall`: as a unary call, but the entry is a new stream reader. */
  function AsyncServerStreamingCall(ch: Channel, id: TxId, methodName: string, request: Payload): (r: Result<Channel, Fault>)
    ensures r.Err? <==> id in Table(ch)
    ensures r.Err? ==> r.error == DuplicateTxId
    ensures r.Ok? ==> Table(r.value) == Table(ch)[id := StreamHandler(NewReader)]
    ensures r.Ok? ==> |Table(r.value)| == |Table(ch)| + 1
    ensures r.Ok? ==> r.value.outgoing == ch.outgoing + [Envelope(id, Some(methodName), Some(request))]
    ensures r.Ok? ==> forall other :: other in ch.calls && other != id ==> other in r.value.calls && r.value.calls[other] == ch.calls[other]
  {
    var r := Register(ch, id, methodName, request, StreamHandler(NewReader));
    assert r.Ok? ==> Table(r.value).Keys == Table(ch).Keys + {id};
    r
  }

  /**
   The poller's handling of one inbound envelope, as written: the payload is
   extracted first (throwing when absent), an unknown id is dropped, a unary
   entry is completed but stays registered, a stream entry receives the item.
   */
  function Dispatch(ch: Channel, env: Envelope): (r: Result<Channel, Fault>)
    ensures env.message.None? ==> r == Err(MissingMessage)
    ensures env.message.Some? && env.txId !in Table(ch) ==> r == Ok(ch)
    ensures r.Ok? ==> Table(r.value).Keys == Table(ch).Keys && r.value.outgoing == ch.outgoing
    ensures r.Ok? ==> r.value.calls.Keys == ch.calls.Keys
    ensures r.Ok? ==> forall other :: other in ch.calls && other != env.txId ==> other in r.value.calls && r.value.calls[other] == ch.calls[other]
    ensures env.message.Some? && env.txId in Table(ch) ==>
              match Table(ch)[env.txId]
              case UnaryHandler(t) =>
                if t == Pending then r.Ok? && Table(r.value)[env.txId] == UnaryHandler(Completed(env.message.value))
                else r == Err(AlreadyCompleted)
              case StreamHandler(reader) =>
                r.Ok? && Table(r.value)[env.txId] == StreamHandler(Receive(reader, env.message.value))
              case ForeignHandler => r == Err(UnknownHandlerType)
  {
    if env.message.None? then Err(MissingMessage)
    else if env.txId !in ch.calls || !ch.calls[env.txId].registered then Ok(ch)
    else
      var id := env.txId;
      var payload := env.message.value;
      match ch.calls[id].handler
      case UnaryHandler(t) =>
        if t == Pending then Ok(ch.(calls := ch.calls[id := Call(UnaryHandler(Completed(payload)), true)]))
        else Err(AlreadyCompleted)
      case StreamHandler(reader) =>
        Ok(ch.(calls := ch.calls[id := Call(StreamHandler(Receive(reader, payload)), true)]))
      case ForeignHandler => Err(UnknownHandlerType)
  }

  /**
   The inbound dispatch with the entry removal the unary dispose action also
   performs: a unary entry is removed when its reply completes it, so a later
   reply under the same id is dropped instead of reaching `SetResult` again.
   */
  function DispatchCorrected(ch: Channel, env: Envelope): (r: Result<Channel, Fault>)
    ensures env.message.None? ==> r == Err(MissingMessage)
    ensures env.message.Some? && env.txId !in Table(ch) ==> r == Ok(ch)
    ensures r.Ok? ==> r.value.calls.Keys == ch.calls.Keys && r.value.outgoing == ch.outgoing
    ensures r.Ok? ==> forall other :: other in ch.calls && other != env.txId ==> other in r.value.calls && r.value.calls[other] == ch.calls[other]
    ensures env.message.Some? && env.txId in Table(ch) ==>
              match Table(ch)[env.txId]
              case UnaryHandler(t) =>
                if t == Pending then
                  r.Ok? && env.txId !in Table(r.value) && env.txId in r.value.calls &&
                  r.value.calls[env.txId].handler == UnaryHandler(Completed(env.message.value))
                else r == Err(AlreadyCompleted)
              case StreamHandler(reader) =>
                r.Ok? && Table(r.value) == Table(ch)[env.txId := StreamHandler(Receive(reader, env.message.value))]
              case ForeignHandler => r == Err(UnknownHandlerType)
  {
    if env.message.None? then Err(MissingMessage)
    else if env.txId !in ch.calls || !ch.calls[env.txId].registered then Ok(ch)
    else
      var id := env.txId;
      var payload := env.message.value;
      match ch.calls[id].handler
      case UnaryHandler(t) =>
        if t == Pending then Ok(ch.(calls := ch.calls[id := Call(UnaryHandler(Completed(payload)), false)]))
        else Err(AlreadyCompleted)
      case StreamHandler(reader) =>
        var r := ch.(calls := ch.calls[id := Call(StreamHandler(Receive(reader, payload)), true)]);
        assert Table(r) == Table(ch)[id := StreamHandler(Receive(reader, payload))];
        Ok(r)
      case ForeignHandler => Err(UnknownHandlerType)
  }

  /** `TrySetCanceled`: only a pending task becomes canceled. */
  function TrySetCanceled(t: TaskState): TaskState {
    if t == Pending then Canceled else t
  }

  /**
   The unary call's dispose action: remove the entry, then cancel the task
   unless it already completed. Nothing is sent to the server.
   */
  function CancelUnary(ch: Channel, id: TxId): (r: Channel)
    requires id in ch.calls && ch.calls[id].handler.UnaryHandler?
    ensures Table(r) == Table(ch) - {id}
    ensures id in r.calls && !r.calls[id].registered
    ensures r.calls[id].handler == UnaryHandler(
              if ch.calls[id].handler.task == Pending then Canceled else ch.calls[id].handler.task)
    ensures r.outgoing == ch.outgoing
    ensures forall other :: other in ch.calls && other != id ==> other in r.calls && r.calls[other] == ch.calls[other]
  {
    var r := ch.(calls := ch.calls[id := Call(UnaryHandler(TrySetCanceled(ch.calls[id].handler.task)), false)]);
    assert Table(r) == Table(ch) - {id};
    r
  }

  /**
   The streaming call's dispose action: enqueue the bare-`tx_id` unsubscribe
   envelope, then remove the entry. Disposing twice enqueues it twice.
   */
  function DisposeStream(ch: Channel, id: TxId): (r: Channel)
    requires id in ch.calls && ch.calls[id].handler.StreamHandler?
    ensures Table(r) == Table(ch) - {id}
    ensures r.outgoing == ch.outgoing + [Envelope(id, None, None)]
    ensures id in r.calls && r.calls[id] == ch.calls[id].(registered := false)
    ensures forall other :: other in ch.calls && other != id ==> other in r.calls && r.calls[other] == ch.calls[other]
  {
    var r := Channel(ch.calls[id := ch.calls[id].(registered := false)], ch.outgoing + [Unsubscribe(id)], ch.disposed);
    assert Table(r) == Table(ch) - {id};
    r
  }

  /** What shutdown does to one entry's handler: a unary task is canceled unless already completed. */
  function Settle(h: Handler): Handler {
    match h
    case UnaryHandler(t) => UnaryHandler(TrySetCanceled(t))
    case _ => h
  }

  /** The handlers shutdown has visited, and the unsubscribe envelopes it enqueued, in visiting order. */
  datatype Settled = Settled(calls: map<TxId, Call>, unsubscribes: seq<Envelope>)

  /** `order` lists each of the given ids once. */
  predicate Enumerates(order: seq<TxId>, ids: set<TxId>) {
    && (forall i :: 0 <= i < |order| ==> order[i] in ids)
    && (forall id :: id in ids ==> id in order)
    && (forall i, j :: 0 <= i < j < |order| ==> order[i] != order[j])
  }

  /**
   `s` is what visiting `order` does to `calls`: the visited unary tasks are
   settled, nothing else changes, and exactly one unsubscribe is enqueued per
   visited stream and for nothing else.
   */
  predicate SettlesAs(calls: map<TxId, Call>, order: seq<TxId>, s: Settled) {
    && s.calls.Keys == calls.Keys
    && (forall id :: id in calls ==>
          s.calls[id] == (if id in order then calls[id].(handler := Settle(calls[id].handler)) else calls[id]))
    && (forall e :: e in s.unsubscribes ==>
          e == Envelope(e.txId, None, None) && e.txId in order && e.txId in calls && calls[e.txId].handler.StreamHandler?)
    && (forall id :: id in order && id in calls && calls[id].handler.StreamHandler? ==>
          multiset(s.unsubscribes)[Envelope(id, None, None)] == 1)
  }

  /** Settling a unary entry first, then the rest against the updated table, settles the whole order. */
  lemma SettleUnaryFirst(calls: map<TxId, Call>, order: seq<TxId>, s: Settled)
    requires |order| > 0 && order[0] in calls && calls[order[0]].handler.UnaryHandler?
    requires forall i :: 1 <= i < |order| ==> order[i] != order[0]
    requires var c := calls[order[0]];
             SettlesAs(calls[order[0] := c.(handler := Settle(c.handler))], order[1..], s)
    ensures SettlesAs(calls, order, s)
  {
    var k := order[0];
    assert forall id :: id in order <==> id == k || id in order[1..];
    assert k !in order[1..];
  }

  /** Enqueuing a stream entry's unsubscribe before the rest's settles the whole order. */
  lemma SettleStreamFirst(calls: map<TxId, Call>, order: seq<TxId>, s: Settled)
    requires |order| > 0 && order[0] in calls && calls[order[0]].handler.StreamHandler?
    requires forall i :: 1 <= i < |order| ==> order[i] != order[0]
    requires SettlesAs(calls, order[1..], s)
    ensures SettlesAs(calls, order, Settled(s.calls, [Unsubscribe(order[0])] + s.unsubscribes))
  {
    var k := order[0];
    var u := [Unsubscribe(k)] + s.unsubscribes;
    assert forall id :: id in order <==> id == k || id in order[1..];
    assert k !in order[1..];
    assert multiset(u) == multiset([Unsubscribe(k)]) + multiset(s.unsubscribes);
    assert Unsubscribe(k) !in s.unsubscribes;
    assert multiset(s.unsubscribes)[Unsubscribe(k)] == 0;
  }

  /**
   The `foreach` of `ShutdownAsyncCore` over the entries in enumeration order:
   cancel each unary task, enqueue an unsubscribe for each stream, throw at the
   first entry of any other type.
   */
  function SettleEntries(calls: map<TxId, Call>, order: seq<TxId>): (r: Result<Settled, Fault>)
    requires forall i :: 0 <= i < |order| ==> order[i] in calls
    requires forall i, j :: 0 <= i < j < |order| ==> order[i] != order[j]
    ensures r.Ok? <==> forall i :: 0 <= i < |order| ==> !calls[order[i]].handler.ForeignHandler?
    ensures r.Ok? ==> SettlesAs(calls, order, r.value)
    decreases |order|
  {
    if |order| == 0 then Ok(Settled(calls, []))
    else
      var k := order[0];
      assert forall i :: 0 <= i < |order| - 1 ==> order[1..][i] == order[i + 1];
      var c := calls[k];
      match c.handler
      case ForeignHandler => Err(UnknownHandlerType)
      case UnaryHandler(t) =>
        var rest := SettleEntries(calls[k := c.(handler := Settle(c.handler))], order[1..]);
        if rest.Ok? then SettleUnaryFirst(calls, order, rest.value); rest else rest
      case StreamHandler(_) =>
        match SettleEntries(calls, order[1..])
        case Err(f) => Err(f)
        case Ok(s) =>
          SettleStreamFirst(calls, order, s);
          Ok(Settled(s.calls, [Unsubscribe(k)] + s.unsubscribes))
  }

  /** Every call in the channel has one of the two kinds the invoker creates. */
  predicate NoForeign(ch: Channel) {
    forall id :: id in ch.calls ==> !ch.calls[id].handler.ForeignHandler?
  }

  /** Visiting exactly the registered ids, read through the table: pending unary tasks are canceled, and streams unsubscribed once each. */
  lemma SettledTable(ch: Channel, order: seq<TxId>, s: Settled)
    requires Enumerates(order, Table(ch).Keys)
    requires SettlesAs(ch.calls, order, s)
    ensures s.calls.Keys == ch.calls.Keys
    ensures forall id :: id in Table(ch) && Table(ch)[id] == UnaryHandler(Pending) ==>
              s.calls[id].handler == UnaryHandler(Canceled)
    ensures forall id :: id in ch.calls && !(id in Table(ch) && Table(ch)[id] == UnaryHandler(Pending)) ==>
              s.calls[id].handler == ch.calls[id].handler
    ensures forall e :: e in s.unsubscribes ==>
              e == Envelope(e.txId, None, None) && e.txId in Table(ch) && Table(ch)[e.txId].StreamHandler?
    ensures forall id :: id in Table(ch) && Table(ch)[id].StreamHandler? ==>
              multiset(s.unsubscribes)[Envelope(id, None, None)] == 1
  {
    assert forall id :: id in order <==> id in Table(ch);
  }

  /**
   `ShutdownAsyncCore`, visiting the entries in the dictionary's enumeration
   order: settle every entry, clear the table, dispose the queue and socket.
   */
  function Shutdown(ch: Channel, order: seq<TxId>): (r: Result<Channel, Fault>)
    requires Enumerates(order, Table(ch).Keys)
    ensures r.Ok? <==> forall id :: id in Table(ch) ==> !Table(ch)[id].ForeignHandler?
    ensures r.Ok? ==> Table(r.value) == map[] && r.value.disposed
    ensures r.Ok? ==> r.value.calls.Keys == ch.calls.Keys
    ensures r.Ok? ==> forall id :: id in Table(ch) && Table(ch)[id] == UnaryHandler(Pending) ==>
              r.value.calls[id].handler == UnaryHandler(Canceled)
    ensures r.Ok? ==> forall id :: id in ch.calls && !(id in Table(ch) && Table(ch)[id] == UnaryHandler(Pending)) ==>
              r.value.calls[id].handler == ch.calls[id].handler
    ensures r.Ok? ==> ch.outgoing <= r.value.outgoing
    ensures r.Ok? ==> forall e :: e in r.value.outgoing[|ch.outgoing|..] ==>
              e == Envelope(e.txId, None, None) && e.txId in Table(ch) && Table(ch)[e.txId].StreamHandler?
    ensures r.Ok? ==> forall id :: id in Table(ch) && Table(ch)[id].StreamHandler? ==>
              multiset(r.value.outgoing[|ch.outgoing|..])[Envelope(id, None, None)] == 1
  {
    match SettleEntries(ch.calls, order)
    case Err(f) => Err(f)
    case Ok(s) =>
      SettledTable(ch, order, s);
      var calls := map id | id in s.calls :: s.calls[id].(registered := false);
      var r := Channel(calls, ch.outgoing + s.unsubscribes, true);
      assert r.outgoing[|ch.outgoing|..] == s.unsubscribes;
      assert Table(r) == map[];
      Ok(r)
  }

  /**
   The outgoing queue's ready handler: dequeue and send until the queue is
   empty. Once shutdown has disposed the queue, nothing more is sent.
   */
  method DrainOutgoing(ch: Channel) returns (sent: seq<Envelope>, after: Channel)
    ensures ch.disposed ==> sent == [] && after == ch
    ensures !ch.disposed ==> sent == ch.outgoing && after == ch.(outgoing := [])
  {
    if ch.disposed {
      return [], ch;
    }
    var queue := ch.outgoing;
    sent := [];
    while |queue| > 0
      invariant sent + queue == ch.outgoing
      decreases |queue|
    {
      sent := sent + [queue[0]];
      queue := queue[1..];
    }
    after := ch.(outgoing := queue);
  }

  // ---------------------------------------------------------------------------
  // Replies that arrive after the caller gave up, and duplicate replies
  // ---------------------------------------------------------------------------

  /** A reply to a unary call its caller already canceled is dropped; the task stays canceled. */
  lemma CancelThenReplyDropped(ch: Channel, id: TxId, p: Payload)
    requires id in Table(ch) && Table(ch)[id] == UnaryHandler(Pending)
    ensures var c := CancelUnary(ch, id);
            Dispatch(c, Reply(id, p)) == Ok(c) && c.calls[id].handler == UnaryHandler(Canceled)
  {
  }

  /** An item for a stream its caller disposed is dropped, after the unsubscribe was enqueued. */
  lemma DisposeThenItemDropped(ch: Channel, id: TxId, p: Payload)
    requires id in Table(ch) && Table(ch)[id].StreamHandler?
    ensures var c := DisposeStream(ch, id);
            Dispatch(c, Reply(id, p)) == Ok(c) && c.outgoing == ch.outgoing + [Unsubscribe(id)]
  {
  }

  /**
   As written, a second reply under a unary call's id reaches `SetResult` on
   the already completed source, which throws on the poller.
   */
  lemma DuplicateReplyFaults(ch: Channel, id: TxId, m: string, req: Payload, p1: Payload, p2: Payload)
    requires id !in Table(ch)
    ensures var c1 := AsyncUnaryCall(ch, id, m, req).value;
            var c2 := Dispatch(c1, Reply(id, p1));
            c2.Ok? && c2.value.calls[id].handler == UnaryHandler(Completed(p1)) &&
            Dispatch(c2.value, Reply(id, p2)) == Err(AlreadyCompleted)
  {
    var c1 := AsyncUnaryCall(ch, id, m, req).value;
    assert Table(c1)[id] == UnaryHandler(Pending);
  }

  /** With the corrected dispatch the second reply is dropped and the first one stands. */
  lemma CorrectedDuplicateReplyDropped(ch: Channel, id: TxId, m: string, req: Payload, p1: Payload, p2: Payload)
    requires id !in Table(ch)
    ensures var c1 := AsyncUnaryCall(ch, id, m, req).value;
            var c2 := DispatchCorrected(c1, Reply(id, p1));
            c2.Ok? && c2.value.calls[id].handler == UnaryHandler(Completed(p1)) &&
            DispatchCorrected(c2.value, Reply(id, p2)) == Ok(c2.value)
  {
    var c1 := AsyncUnaryCall(ch, id, m, req).value;
    assert Table(c1)[id] == UnaryHandler(Pending);
  }

  // ---------------------------------------------------------------------------
  // Runs of operations
  // ---------------------------------------------------------------------------

  /** What callers and the poller can do to a channel. */
  datatype Op =
    | UnaryCall(id: TxId, methodName: string, request: Payload)
    | StreamCall(id: TxId, methodName: string, request: Payload)
    | Inbound(env: Envelope)
    | CancelCall(id: TxId)
    | DisposeCall(id: TxId)

  /** Which inbound dispatch the poller runs: the code as written, or the corrected one. */
  datatype Poller = AsWritten | WithRemoval

  /** The poller handling one inbound envelope. */
  function Deliver(p: Poller, ch: Channel, env: Envelope): Result<Channel, Fault> {
    match p
    case AsWritten => Dispatch(ch, env)
    case WithRemoval => DispatchCorrected(ch, env)
  }

  /**
   One operation. A caller can only dispose a call it holds, so a cancel or
   dispose naming anything else is no action at all. Calls are never
   forgotten, the queue only grows, by at most the one envelope a caller
   enqueues, and the poller enqueues nothing.
   */
  function Step(p: Poller, ch: Channel, op: Op): (r: Result<Channel, Fault>)
    ensures r.Ok? ==> ch.calls.Keys <= r.value.calls.Keys
    ensures r.Ok? ==> ch.outgoing <= r.value.outgoing && |r.value.outgoing| <= |ch.outgoing| + 1
    ensures r.Ok? && op.Inbound? ==> r.value.outgoing == ch.outgoing
    ensures r.Ok? ==> r.value.disposed == ch.disposed
  {
    match op
    case UnaryCall(id, m, req) => AsyncUnaryCall(ch, id, m, req)
    case StreamCall(id, m, req) => AsyncServerStreamingCall(ch, id, m, req)
    case Inbound(env) => Deliver(p, ch, env)
    case CancelCall(id) =>
      if id in ch.calls && ch.calls[id].handler.UnaryHandler? then Ok(CancelUnary(ch, id)) else Ok(ch)
    case DisposeCall(id) =>
      if id in ch.calls && ch.calls[id].handler.StreamHandler? then Ok(DisposeStream(ch, id)) else Ok(ch)
  }

  /** The operations in order, stopping at the first that throws. */
  function Run(p: Poller, ch: Channel, ops: seq<Op>): (r: Result<Channel, Fault>)
    ensures r.Ok? ==> ch.calls.Keys <= r.value.calls.Keys
    ensures r.Ok? ==> ch.outgoing <= r.value.outgoing && |r.value.outgoing| <= |ch.outgoing| + |ops|
    ensures r.Ok? ==> r.value.disposed == ch.disposed
    decreases |ops|
  {
    if |ops| == 0 then Ok(ch)
    else match Step(p, ch, ops[0])
      case Err(f) => Err(f)
      case Ok(next) => Run(p, next, ops[1..])
  }

  /**
   The invariant of the code as written: every call is unary or streaming, and
   no registered unary task is canceled, since only the dispose action and
   shutdown cancel and both unregister. A completed one may stay registered.
   */
  predicate Kept(ch: Channel) {
    && NoForeign(ch)
    && forall id :: id in ch.calls && ch.calls[id].registered && ch.calls[id].handler.UnaryHandler? ==>
         ch.calls[id].handler.task != Canceled
  }

  /** Either dispatch keeps `Kept`, and throws only on a missing message or a second reply. */
  lemma InboundKept(p: Poller, ch: Channel, env: Envelope)
    requires Kept(ch)
    ensures Deliver(p, ch, env).Ok? ==> Kept(Deliver(p, ch, env).value)
    ensures Deliver(p, ch, env).Err? ==> Deliver(p, ch, env).error in {MissingMessage, AlreadyCompleted}
  {
    if env.message.Some? && env.txId in Table(ch) {
      assert Table(ch)[env.txId] == ch.calls[env.txId].handler;
    }
  }

  /** One step keeps `Kept`; it throws only on a reused id, a payload-less envelope or a second reply. */
  lemma StepKept(p: Poller, ch: Channel, op: Op)
    requires Kept(ch)
    ensures Step(p, ch, op).Ok? ==> Kept(Step(p, ch, op).value)
    ensures Step(p, ch, op).Err? ==> Step(p, ch, op).error in {DuplicateTxId, MissingMessage, AlreadyCompleted}
  {
    match op
    case Inbound(env) => InboundKept(p, ch, env);
    case UnaryCall(id, m, req) => RegisterKept(ch, id, m, req, UnaryHandler(Pending));
    case StreamCall(id, m, req) => RegisterKept(ch, id, m, req, StreamHandler(NewReader));
    case CancelCall(id) =>
    case DisposeCall(id) =>
  }

  /** Registering a fresh unary or stream entry keeps `Kept`. */
  lemma RegisterKept(ch: Channel, id: TxId, m: string, req: Payload, h: Handler)
    requires Kept(ch) && (h == UnaryHandler(Pending) || h.StreamHandler?)
    ensures Register(ch, id, m, req, h).Ok? ==> Kept(Register(ch, id, m, req, h).value)
  {
  }

  /** Every run keeps `Kept`, so the "other type" exceptions of the poller and of shutdown are unreachable. */
  lemma {:induction false} RunKept(p: Poller, ch: Channel, ops: seq<Op>)
    requires Kept(ch)
    ensures Run(p, ch, ops).Ok? ==> Kept(Run(p, ch, ops).value)
    ensures Run(p, ch, ops).Err? ==> Run(p, ch, ops).error in {DuplicateTxId, MissingMessage, AlreadyCompleted}
    decreases |ops|
  {
    if |ops| > 0 {
      StepKept(p, ch, ops[0]);
      if Step(p, ch, ops[0]).Ok? {
        RunKept(p, Step(p, ch, ops[0]).value, ops[1..]);
      }
    }
  }

  /** Shutdown of any channel reached from a fresh one completes without throwing, with either dispatch. */
  lemma {:induction false} ShutdownAfterRun(p: Poller, ops: seq<Op>, order: seq<TxId>)
    requires Run(p, Fresh, ops).Ok?
    requires Enumerates(order, Table(Run(p, Fresh, ops).value).Keys)
    ensures Shutdown(Run(p, Fresh, ops).value, order).Ok?
  {
    RunKept(p, Fresh, ops);
    var ch := Run(p, Fresh, ops).value;
    forall id | id in Table(ch) ensures !Table(ch)[id].ForeignHandler? {
      assert Table(ch)[id] == ch.calls[id].handler;
    }
  }

  /**
   The invariant once replies remove their entries: in addition, every unary
   call still in the table is pending.
   */
  predicate Sound(ch: Channel) {
    && NoForeign(ch)
    && forall id :: id in ch.calls && ch.calls[id].registered && ch.calls[id].handler.UnaryHandler? ==>
         ch.calls[id].handler.task == Pending
  }

  /** With removal on completion, one step keeps `Sound` and a second reply can no longer throw. */
  lemma StepSound(ch: Channel, op: Op)
    requires Sound(ch)
    ensures Step(WithRemoval, ch, op).Ok? ==> Sound(Step(WithRemoval, ch, op).value)
    ensures Step(WithRemoval, ch, op).Err? ==> Step(WithRemoval, ch, op).error in {DuplicateTxId, MissingMessage}
  {
    match op
    case Inbound(env) => InboundSound(ch, env);
    case UnaryCall(id, m, req) => RegisterSound(ch, id, m, req, UnaryHandler(Pending));
    case StreamCall(id, m, req) => RegisterSound(ch, id, m, req, StreamHandler(NewReader));
    case CancelCall(id) =>
    case DisposeCall(id) =>
  }

  /** Registering a fresh pending unary or stream entry keeps `Sound`. */
  lemma RegisterSound(ch: Channel, id: TxId, m: string, req: Payload, h: Handler)
    requires Sound(ch) && (h == UnaryHandler(Pending) || h.StreamHandler?)
    ensures Register(ch, id, m, req, h).Ok? ==> Sound(Register(ch, id, m, req, h).value)
  {
  }

  /** The corrected dispatch keeps `Sound` and never meets a settled unary entry. */
  lemma InboundSound(ch: Channel, env: Envelope)
    requires Sound(ch)
    ensures DispatchCorrected(ch, env).Ok? ==> Sound(DispatchCorrected(ch, env).value)
    ensures DispatchCorrected(ch, env).Err? ==> DispatchCorrected(ch, env).error == MissingMessage
  {
    if env.message.Some? && env.txId in Table(ch) {
      assert Table(ch)[env.txId] == ch.calls[env.txId].handler;
    }
  }

  /** With removal on completion, every run keeps `Sound` and throws only on a reused id or a missing message. */
  lemma {:induction false} RunSound(ch: Channel, ops: seq<Op>)
    requires Sound(ch)
    ensures Run(WithRemoval, ch, ops).Ok? ==> Sound(Run(WithRemoval, ch, ops).value)
    ensures Run(WithRemoval, ch, ops).Err? ==> Run(WithRemoval, ch, ops).error in {DuplicateTxId, MissingMessage}
    decreases |ops|
  {
    if |ops| > 0 {
      StepSound(ch, ops[0]);
      if Step(WithRemoval, ch, ops[0]).Ok? {
        RunSound(Step(WithRemoval, ch, ops[0]).value, ops[1..]);
      }
    }
  }

  /** The poller receiving replies or items `items` for transaction `id`. */
  function Deliveries(id: TxId, items: seq<Payload>): (r: seq<Op>)
    ensures |r| == |items|
    ensures forall i :: 0 <= i < |items| ==> r[i] == Inbound(Envelope(id, None, Some(items[i])))
    decreases |items|
  {
    if |items| == 0 then [] else [Inbound(Reply(id, items[0]))] + Deliveries(id, items[1..])
  }

  /** Envelopes for an id that is not in the table change nothing, with either dispatch. */
  lemma {:induction false} DeliveriesToUnknownIgnored(p: Poller, ch: Channel, id: TxId, items: seq<Payload>)
    requires id !in Table(ch)
    ensures Run(p, ch, Deliveries(id, items)) == Ok(ch)
    decreases |items|
  {
    if |items| > 0 {
      var ops := Deliveries(id, items);
      assert ops[1..] == Deliveries(id, items[1..]);
      DeliveriesToUnknownIgnored(p, ch, id, items[1..]);
    }
  }

  /**
   As written, the first reply to a pending unary call completes it and leaves
   it registered, so any further reply throws on the poller.
   */
  lemma {:induction false} UnaryResolvesOnce(ch: Channel, id: TxId, items: seq<Payload>)
    requires id in Table(ch) && Table(ch)[id] == UnaryHandler(Pending)
    requires |items| > 0
    ensures var r := Run(AsWritten, ch, Deliveries(id, items));
            && (|items| == 1 ==> r.Ok? && id in Table(r.value) && Table(r.value)[id] == UnaryHandler(Completed(items[0])))
            && (|items| > 1 ==> r == Err(AlreadyCompleted))
  {
    var ops := Deliveries(id, items);
    var c := Dispatch(ch, Reply(id, items[0])).value;
    assert ops[1..] == Deliveries(id, items[1..]);
    if |items| > 1 {
      var more := ops[1..];
      assert more[1..] == Deliveries(id, items[2..]);
      assert Table(c)[id] == UnaryHandler(Completed(items[0]));
    }
  }

  /** With removal on completion, the first reply resolves a pending unary call and the rest are dropped. */
  lemma {:induction false} UnaryResolvesOnceCorrected(ch: Channel, id: TxId, items: seq<Payload>)
    requires id in Table(ch) && Table(ch)[id] == UnaryHandler(Pending)
    requires |items| > 0
    ensures var r := Run(WithRemoval, ch, Deliveries(id, items));
            r.Ok? && id in r.value.calls && id !in Table(r.value) &&
            r.value.calls[id].handler == UnaryHandler(Completed(items[0]))
  {
    var ops := Deliveries(id, items);
    assert ops[1..] == Deliveries(id, items[1..]);
    var c := DispatchCorrected(ch, Reply(id, items[0])).value;
    DeliveriesToUnknownIgnored(WithRemoval, c, id, items[1..]);
  }

  /**
   Items for a live stream reach its reader one after another, with either
   dispatch: the reader ends as if it had received them in order. It keeps only
   the last item as `Current` and releases one waiter per item, so an item not
   read before the next one arrives is overwritten.
   */
  lemma {:induction false} StreamReceivesInOrder(p: Poller, ch: Channel, id: TxId, items: seq<Payload>)
    requires id in Table(ch) && Table(ch)[id].StreamHandler?
    ensures var r := Run(p, ch, Deliveries(id, items));
            r.Ok? && id in Table(r.value) &&
            Table(r.value)[id] == StreamHandler(ReceiveSeq(Table(ch)[id].reader, items))
    ensures var r := Run(p, ch, Deliveries(id, items)).value;
            var before := Table(ch)[id].reader;
            |items| > 0 ==>
              Table(r)[id].reader == StreamReader(Some(items[|items| - 1]), before.waiter + |items|)
    decreases |items|
  {
    if |items| > 0 {
      var ops := Deliveries(id, items);
      assert ops[1..] == Deliveries(id, items[1..]);
      var c := Deliver(p, ch, Reply(id, items[0])).value;
      StreamReceivesInOrder(p, c, id, items[1..]);
      ReceiveAll(Table(ch)[id].reader, items);
    }
  }
}

=== FILE: common.dfy ===
/**
 Types shared by every part of the bridge: optional values and results, bytes,
 the RPC envelope exchanged between the plugin and the browser extension, and
 the `findIndex` search both TypeScript files rely on.
 */
module Common {

  /** A value that may be absent (`null`/`undefined` in the sources). */
  datatype Option<+T> = None | Some(value: T)

  /** The outcome of an operation that may throw instead of returning. */
  datatype Result<+T, +E> = Ok(value: T) | Err(error: E)

  /** 2^32: the range of a C# `uint` and of a WebIDL `unsigned long`. */
  const Two32: int := 0x1_0000_0000

  /** One octet, as read from or written to a stream. */
  newtype byte = x: int | 0 <= x < 256

  /** A transaction id: the GUID string the caller generates for each call. */
  type TxId = string

  /** The JSON text of an envelope's `message` member; its structure is opaque here. */
  type Payload = string

  /**
   The logical RPC message carried in one frame: `{tx_id, method?, message?}`.
   A call-initiating envelope carries all three members, a reply or stream item
   carries `tx_id` and `message`, an unsubscribe request carries `tx_id` only.
   */
  datatype Envelope = Envelope(txId: TxId, methodName: Option<string>, message: Option<Payload>)

  function Request(id: TxId, methodName: string, request: Payload): Envelope {
    Envelope(id, Some(methodName), Some(request))
  }

  function Reply(id: TxId, message: Payload): Envelope {
    Envelope(id, None, Some(message))
  }

  function Unsubscribe(id: TxId): Envelope {
    Envelope(id, None, None)
  }

  /**
   `Array.prototype.findIndex` over precomputed predicate values: the index of
   the first `true`, or -1 when there is none.
   */
  function FindIndex(flags: seq<bool>): (r: int)
    ensures -1 <= r < |flags|
    ensures r >= 0 ==> flags[r] && forall j :: 0 <= j < r ==> !flags[j]
    ensures r == -1 <==> forall j :: 0 <= j < |flags| ==> !flags[j]
  {
    if |flags| == 0 then -1
    else if flags[0] then 0
    else
      var k := FindIndex(flags[1..]);
      if k == -1 then -1 else k + 1
  }
}

=== FILE: content_script.dfy ===
/**
 The YouTube Music content script (xiv-ytmusic-ext/src/contentScript/index.ts):
 a CSS selector path `html>:nth-child(i)>…` built by walking up an element's
 parent chain, the index of the selected queue child, and the tap request sent
 for a queue position.

 The page is an abstract element tree: each element's `parentElement` and
 each element's `children` in document order. A depth annotation makes the
 parent chain well-founded, as it is in any real document.
 */
module ContentScript {
  import opened Common
  import BackgroundDispatch

  type Node = nat

  /** Elements of a page: `parentElement`, `children`, and a depth that strictly grows from parent to child. */
  datatype Dom = Dom(parent: map<Node, Node>, children: map<Node, seq<Node>>, depth: map<Node, nat>)

  /** The parent chain of every element ends. */
  predicate Valid(d: Dom) {
    forall n :: n in d.parent ==>
      && n in d.depth
      && (d.parent[n] in d.parent ==> d.parent[n] in d.depth && d.depth[d.parent[n]] < d.depth[n])
  }

  /** Every element is among its parent's children, as in a real document. */
  predicate Linked(d: Dom) {
    forall n :: n in d.parent ==> n in ChildrenOf(d, d.parent[n])
  }

  /** `element.children`; an element without an entry has none. */
  function ChildrenOf(d: Dom, p: Node): seq<Node> {
    if p in d.children then d.children[p] else []
  }

  /** How many parent steps remain above `n`, as a termination measure. */
  function Height(d: Dom, n: Node): nat
    requires Valid(d)
  {
    if n in d.parent then d.depth[n] + 1 else 0
  }

  // ---------------------------------------------------------------------------
  // getMyIndex
  // ---------------------------------------------------------------------------

  /** `getMyIndex`: 0 without a parent, else the 1-based first position among the parent's children, else -1. */
  function MyIndex(d: Dom, n: Node): (r: int)
    ensures n !in d.parent ==> r == 0
    ensures n in d.parent ==> r == -1 || 1 <= r <= |ChildrenOf(d, d.parent[n])|
    ensures n in d.parent && r >= 1 ==>
              ChildrenOf(d, d.parent[n])[r - 1] == n &&
              forall j :: 0 <= j < r - 1 ==> ChildrenOf(d, d.parent[n])[j] != n
    ensures n in d.parent ==> (r == -1 <==> n !in ChildrenOf(d, d.parent[n]))
  {
    if n !in d.parent then 0
    else
      var cs := ChildrenOf(d, d.parent[n]);
      var flags := seq(|cs|, j requires 0 <= j < |cs| => cs[j] == n);
      assert forall j :: 0 <= j < |cs| ==> flags[j] == (cs[j] == n);
      var k := FindIndex(flags);
      if k == -1 then -1 else k + 1
  }

  /** `getMyIndex` as the source writes it, scanning the parent's children with an index loop. */
  method GetMyIndex(d: Dom, n: Node) returns (r: int)
    ensures n !in d.parent ==> r == 0
    ensures n in d.parent && r != -1 ==>
              1 <= r <= |ChildrenOf(d, d.parent[n])| && ChildrenOf(d, d.parent[n])[r - 1] == n &&
              forall j :: 0 <= j < r - 1 ==> ChildrenOf(d, d.parent[n])[j] != n
    ensures n in d.parent ==> (r == -1 <==> n !in ChildrenOf(d, d.parent[n]))
    ensures r == MyIndex(d, n)
  {
    if n !in d.parent {
      return 0;
    }
    var cs := ChildrenOf(d, d.parent[n]);
    var index := 0;
    while index < |cs|
      invariant 0 <= index <= |cs|
      invariant forall j :: 0 <= j < index ==> cs[j] != n
    {
      if cs[index] == n {
        return index + 1;
      }
      index := index + 1;
    }
    return -1;
  }

  /** In a linked page every element with a parent finds itself. */
  lemma LinkedIndexPositive(d: Dom, n: Node)
    requires Linked(d) && n in d.parent
    ensures MyIndex(d, n) >= 1
  {
  }

  // ---------------------------------------------------------------------------
  // Decimal numerals of the child indices (no exponent notation)
  // ---------------------------------------------------------------------------

  function DigitChar(k: nat): (c: char)
    requires k < 10
    ensures '0' <= c <= '9' && (c as int) - ('0' as int) == k
  {
    (('0' as int) + k) as char
  }

  /** The decimal numeral of `n`, without leading zeros. */
  function Digits(n: nat): (r: string)
    ensures 1 <= |r|
    ensures forall k :: 0 <= k < |r| ==> '0' <= r[k] <= '9'
    ensures n > 0 ==> r[0] != '0'
  {
    if n < 10 then [DigitChar(n)] else Digits(n / 10) + [DigitChar(n % 10)]
  }

  /** The decimal numeral of an integer, with a minus sign when negative. */
  function IntToString(i: int): (r: string)
    ensures forall k :: 0 <= k < |r| ==> r[k] == '-' || '0' <= r[k] <= '9'
    ensures |r| >= 1 && (r[0] == '-' <==> i < 0)
    ensures forall k :: 1 <= k < |r| ==> r[k] != '-'
    ensures i == 0 <==> r == "0"
    ensures i < 0 ==> |r| >= 2 && r[1] != '0'
    ensures i > 0 ==> r[0] != '0'
  {
    if i < 0 then "-" + Digits(-i) else Digits(i)
  }

  /** Reading a string of digits back as a number. */
  function ParseDigits(s: string): nat
    requires forall k :: 0 <= k < |s| ==> '0' <= s[k] <= '9'
  {
    if |s| == 0 then 0 else 10 * ParseDigits(s[..|s| - 1]) + ((s[|s| - 1] as int) - ('0' as int))
  }

  /** Reading a numeral back as an integer. */
  function ParseInt(s: string): int
    requires |s| >= 1 && (forall k :: 0 <= k < |s| ==> s[k] == '-' || '0' <= s[k] <= '9')
    requires s[0] == '-' ==> forall k :: 1 <= k < |s| ==> '0' <= s[k] <= '9'
    requires s[0] != '-' ==> forall k :: 0 <= k < |s| ==> '0' <= s[k] <= '9'
  {
    if s[0] == '-' then 0 - ParseDigits(s[1..]) else ParseDigits(s)
  }

  lemma {:induction false} DigitsRoundTrip(n: nat)
    ensures ParseDigits(Digits(n)) == n
  {
    var s := Digits(n);
    if n >= 10 {
      DigitsRoundTrip(n / 10);
      assert s[..|s| - 1] == Digits(n / 10);
    }
  }

  /** The index numeral in a path segment reads back as the index. */
  lemma {:induction false} IntToStringRoundTrip(i: int)
    ensures ParseInt(IntToString(i)) == i
  {
    if i < 0 {
      DigitsRoundTrip(-i);
      assert IntToString(i)[1..] == Digits(-i);
    } else {
      DigitsRoundTrip(i);
    }
  }

  // ---------------------------------------------------------------------------
  // getMyPathByIndex
  // ---------------------------------------------------------------------------

  /** One step of a selector path. */
  function Segment(index: int): string {
    ">" + (":nth-child(" + IntToString(index) + ")")
  }

  /** The text after a step's `>` holds digits, a sign and punctuation, never another `>`. */
  lemma NumeralHasNoStep(i: int)
    ensures '>' !in ":nth-child(" + IntToString(i) + ")"
  {
  }

  /** A string that starts with `>` and holds no other one counts exactly one. */
  lemma LeadingStepCounted(rest: string)
    requires '>' !in rest
    ensures multiset(">" + rest)['>'] == 1
  {
    assert multiset(">" + rest) == multiset(">") + multiset(rest);
  }

  /** Each step holds exactly one `>`: the numeral never contains one. */
  lemma SegmentHasOneStep(index: int)
    ensures multiset(Segment(index))['>'] == 1
  {
    var rest := ":nth-child(" + IntToString(index) + ")";
    NumeralHasNoStep(index);
    LeadingStepCounted(rest);
  }

  /** `getMyPathByIndex`: `''` for null, `'html'` for a parentless element, else the parent's path and one step. */
  function Path(d: Dom, n: Option<Node>): (r: string)
    requires Valid(d)
    ensures n.None? ==> r == ""
    ensures n.Some? ==> |r| >= 4 && r[..4] == "html"
    ensures n.Some? ==> (r == "html" <==> n.value !in d.parent)
    decreases if n.Some? then Height(d, n.value) else 0
  {
    match n
    case None => ""
    case Some(e) =>
      if e !in d.parent then "html"
      else
        var up := Path(d, Some(d.parent[e]));
        assert (up + Segment(MyIndex(d, e)))[..4] == up[..4];
        up + Segment(MyIndex(d, e))
  }

  /** The indices of the steps from the top of the chain down to `e`. */
  function Indices(d: Dom, e: Node): (r: seq<int>)
    requires Valid(d)
    ensures e !in d.parent <==> |r| == 0
    decreases Height(d, e)
  {
    if e !in d.parent then [] else Indices(d, d.parent[e]) + [MyIndex(d, e)]
  }

  /** The top of `e`'s parent chain: the element whose path is `html`. */
  function Top(d: Dom, e: Node): (r: Node)
    requires Valid(d)
    ensures r !in d.parent
    decreases Height(d, e)
  {
    if e !in d.parent then e else Top(d, d.parent[e])
  }

  /** A path spelled out from its step indices. */
  function Render(indices: seq<int>): string {
    if |indices| == 0 then "html" else Render(indices[..|indices| - 1]) + Segment(indices[|indices| - 1])
  }

  /** The `:nth-child` selector read from `root`: follow each 1-based child index in turn. */
  function Resolve(d: Dom, root: Node, indices: seq<int>): Option<Node> {
    if |indices| == 0 then Some(root)
    else match Resolve(d, root, indices[..|indices| - 1])
      case None => None
      case Some(p) =>
        var k := indices[|indices| - 1];
        if 1 <= k <= |ChildrenOf(d, p)| then Some(ChildrenOf(d, p)[k - 1]) else None
  }

  /** An element's path is its step indices, rendered. */
  lemma {:induction false} PathRendersIndices(d: Dom, e: Node)
    requires Valid(d)
    ensures Path(d, Some(e)) == Render(Indices(d, e))
    decreases Height(d, e)
  {
    if e in d.parent {
      PathRendersIndices(d, d.parent[e]);
      var steps := Indices(d, e);
      assert steps[..|steps| - 1] == Indices(d, d.parent[e]);
    }
  }

  /** A rendered path has exactly one `>` per step. */
  lemma {:induction false} RenderCountsSteps(indices: seq<int>)
    ensures multiset(Render(indices))['>'] == |indices|
  {
    if |indices| > 0 {
      RenderCountsSteps(indices[..|indices| - 1]);
      SegmentHasOneStep(indices[|indices| - 1]);
    }
  }

  /** A path has one `>` per ancestor step. */
  lemma {:induction false} PathCountsAncestors(d: Dom, e: Node)
    requires Valid(d)
    ensures multiset(Path(d, Some(e)))['>'] == |Indices(d, e)|
  {
    PathRendersIndices(d, e);
    RenderCountsSteps(Indices(d, e));
  }

  /** In a linked page, following an element's path from the top of its chain leads back to it. */
  lemma {:induction false} PathLocatesElement(d: Dom, e: Node)
    requires Valid(d) && Linked(d)
    ensures Resolve(d, Top(d, e), Indices(d, e)) == Some(e)
    decreases Height(d, e)
  {
    if e in d.parent {
      var p := d.parent[e];
      PathLocatesElement(d, p);
      var steps := Indices(d, e);
      assert steps[..|steps| - 1] == Indices(d, p);
      LinkedIndexPositive(d, e);
    }
  }

  // ---------------------------------------------------------------------------
  // Queue helpers
  // ---------------------------------------------------------------------------

  /**
   `indexOfCurrentQueueChild`, given each queue child's own `selected`
   attribute: `undefined` without a child list, else the first selected index,
   else -1.
   */
  function IndexOfCurrentQueueChild(selected: Option<seq<bool>>): (r: Option<int>)
    ensures selected.None? <==> r.None?
    ensures selected.Some? ==> -1 <= r.value < |selected.value|
    ensures selected.Some? && r.value >= 0 ==>
              selected.value[r.value] && forall j :: 0 <= j < r.value ==> !selected.value[j]
    ensures selected.Some? ==> (r.value == -1 <==> forall j :: 0 <= j < |selected.value| ==> !selected.value[j])
  {
    match selected
    case None => None
    case Some(flags) => Some(FindIndex(flags))
  }

  /**
   When no queue child carries the selection on an inner queue item, the
   content script and the background page agree on the current position.
   */
  lemma QueueIndicesAgree(entries: seq<BackgroundDispatch.QueueEntry>)
    requires forall j :: 0 <= j < |entries| ==> entries[j].primaryItemSelected != Some(true)
    ensures var own := seq(|entries|, j requires 0 <= j < |entries| => entries[j].selected);
            var here := IndexOfCurrentQueueChild(Some(own)).value;
            match BackgroundDispatch.CurrentIndex(entries)
            case None => here == -1
            case Some(i) => here == i
  {
    var own := seq(|entries|, j requires 0 <= j < |entries| => entries[j].selected);
    assert forall j :: 0 <= j < |entries| ==> (own[j] <==> BackgroundDispatch.IsSelected(entries[j]));
  }

  /** The message `playInQueue` hands to its callback. */
  datatype TapRequest = TapRequest(func: string, args: seq<string>)

  /**
   `playInQueue(i, cb)`: the tap request passed to the callback, or None when
   the callback is not called. `children` is the queue's child list when the
   queue has one, and `playButton` gives each element's first
   `ytmusic-play-button-renderer` descendant.
   */
  function PlayInQueue(d: Dom, children: Option<seq<Node>>, playButton: map<Node, Node>, i: int): (r: Option<TapRequest>)
    requires Valid(d)
    ensures r.Some? <==>
              children.Some? && i % Two32 < |children.value| && children.value[i % Two32] in playButton
    ensures r.Some? ==>
              var b := playButton[children.value[i % Two32]];
              r.value.func == "sendTapTo" && r.value.args == [Render(Indices(d, b))] &&
              (Linked(d) ==> Resolve(d, Top(d, b), Indices(d, b)) == Some(b))
  {
    match children
    case None => None
    case Some(cs) =>
      var k := i % Two32;
      if k >= |cs| then None
      else if cs[k] !in playButton then None
      else
        PathLeadsTo(d, playButton[cs[k]]);
        Some(TapRequest("sendTapTo", [Path(d, Some(playButton[cs[k]]))]))
  }

  /** An element's path spells its step indices, which lead from the top of a consistent page back to it. */
  lemma PathLeadsTo(d: Dom, e: Node)
    requires Valid(d)
    ensures Path(d, Some(e)) == Render(Indices(d, e))
    ensures Linked(d) ==> Resolve(d, Top(d, e), Indices(d, e)) == Some(e)
  {
    PathRendersIndices(d, e);
    if Linked(d) {
      PathLocatesElement(d, e);
    }
  }

  /** A position and the same position shifted by 2^32 select the same queue child. */
  lemma PlayInQueueWraps(d: Dom, children: Option<seq<Node>>, playButton: map<Node, Node>, i: int)
    requires Valid(d)
    ensures PlayInQueue(d, children, playButton, i) == PlayInQueue(d, children, playButton, i + Two32)
  {
    assert (i + Two32) % Two32 == i % Two32;
  }
}

=== FILE: framing.dfy ===
/**
 The native-messaging host (XivYtMusicRPCHost/Program.cs): Chrome talks to it
 over stdio with frames made of a 32-bit length in native (little-endian) byte
 order followed by that many payload bytes; the host forwards each payload as
 one socket frame and writes each socket frame back to stdout the same way.

 Both pumps are modelled as functions of what their environment delivers:
 the reader of the bytes stdin yields before it ends, the writer of the frames
 the socket yields and of the outcome of each stdout write. Cancellation
 requested by the other pump is an input too: `cancelAfter == Some(k)` means the
 loop guard observes it after k frames.
 */
module Framing {
  import opened Common

  /** The runtime's `Array.MaxLength`: no byte array is longer. */
  const MaxArrayLength: int := 0x7FFF_FFC7

  /** A frame payload is a byte array, so its length fits the array bound. */
  type Frame = s: seq<byte> | |s| <= MaxArrayLength

  /** `BitConverter.GetBytes(uint)` on a little-endian machine: the four base-256 digits of `n`, lowest first. */
  function UInt32Bytes(n: nat): (p: seq<byte>)
    requires n < Two32
    ensures |p| == 4
    ensures p[0] as int + 256 * (p[1] as int + 256 * (p[2] as int + 256 * p[3] as int)) == n
  {
    var q0 := n / 256;
    var q1 := q0 / 256;
    var q2 := q1 / 256;
    assert n == n % 256 + 256 * q0;
    assert q0 == q0 % 256 + 256 * q1;
    assert q1 == q1 % 256 + 256 * q2;
    [(n % 256) as byte, (q0 % 256) as byte, (q1 % 256) as byte, q2 as byte]
  }

  /** `BitConverter.ToUInt32` on a little-endian machine: the number whose base-256 digits, lowest first, are `p`. */
  function UInt32Value(p: seq<byte>): (n: nat)
    requires |p| == 4
    ensures n < Two32
    ensures n % 256 == p[0] as int && (n / 256) % 256 == p[1] as int
    ensures (n / 256 / 256) % 256 == p[2] as int && n / 256 / 256 / 256 == p[3] as int
  {
    var b := p[2] as int + 256 * p[3] as int;
    var a := p[1] as int + 256 * b;
    var n := p[0] as int + 256 * a;
    assert n / 256 == a && n % 256 == p[0] as int;
    assert a / 256 == b && a % 256 == p[1] as int;
    assert b / 256 == p[3] as int && b % 256 == p[2] as int;
    n
  }

  /** Reading back a written prefix yields the number that was written. */
  lemma UInt32RoundTrip(n: nat)
    requires n < Two32
    ensures UInt32Value(UInt32Bytes(n)) == n
  {
    var q0 := n / 256;
    var q1 := q0 / 256;
    var q2 := q1 / 256;
    assert n == n % 256 + 256 * q0;
    assert q0 == q0 % 256 + 256 * q1;
    assert q1 == q1 % 256 + 256 * q2;
  }

  /** Four bytes are the prefix of the number they denote: the prefix is unique. */
  lemma UInt32Unique(p: seq<byte>)
    requires |p| == 4
    ensures UInt32Bytes(UInt32Value(p)) == p
  {
    var n := UInt32Value(p);
    var a := p[1] as int + 256 * (p[2] as int + 256 * p[3] as int);
    var b := p[2] as int + 256 * p[3] as int;
    assert n == p[0] as int + 256 * a;
    assert n / 256 == a && n % 256 == p[0] as int;
    assert a / 256 == b && a % 256 == p[1] as int;
    assert b / 256 == p[3] as int && b % 256 == p[2] as int;
  }

  /** The bytes the writer puts on stdout for one frame. */
  function Encode(m: Frame): (r: seq<byte>)
    ensures |r| == 4 + |m|
    ensures UInt32Value(r[..4]) == |m|
    ensures r[4..] == m
  {
    UInt32RoundTrip(|m|);
    assert (UInt32Bytes(|m|) + m)[..4] == UInt32Bytes(|m|);
    UInt32Bytes(|m|) + m
  }

  function EncodeAll(ms: seq<Frame>): seq<byte> {
    if |ms| == 0 then [] else Encode(ms[0]) + EncodeAll(ms[1..])
  }

  lemma {:induction false} EncodeAllAppend(a: seq<Frame>, b: seq<Frame>)
    ensures EncodeAll(a + b) == EncodeAll(a) + EncodeAll(b)
  {
    if |a| == 0 {
      assert a + b == b;
    } else {
      assert (a + b)[1..] == a[1..] + b;
      EncodeAllAppend(a[1..], b);
    }
  }

  /** Whatever follows a frame's encoding, the first four bytes give its length. */
  lemma PrefixGivesLength(f: Frame, s: seq<byte>)
    requires Encode(f) <= s
    ensures |s| >= 4 + |f|
    ensures UInt32Value(s[..4]) == |f|
  {
    assert s[..4] == Encode(f)[..4];
  }

  /** `s` begins with a whole frame: a length prefix within the array bound and that many bytes. */
  predicate HasCompleteFrame(s: seq<byte>) {
    |s| >= 4 && UInt32Value(s[..4]) <= MaxArrayLength && |s| - 4 >= UInt32Value(s[..4])
  }

  /** A stream begins with a whole frame exactly when it begins with some frame's encoding. */
  lemma CompleteFrameIff(s: seq<byte>)
    ensures HasCompleteFrame(s) <==> exists f: Frame :: Encode(f) <= s
  {
    if HasCompleteFrame(s) {
      var length := UInt32Value(s[..4]);
      FrameAtFront(s, length);
      var f: Frame := s[4..4 + length];
      assert Encode(f) <= s;
    } else {
      forall f: Frame | Encode(f) <= s
        ensures false
      {
        PrefixGivesLength(f, s);
      }
    }
  }

  /** The four bytes announcing `length`, then `length` bytes, are that frame's encoding. */
  lemma FrameAtFront(s: seq<byte>, length: nat)
    requires |s| >= 4 && length == UInt32Value(s[..4])
    requires length <= MaxArrayLength && 4 + length <= |s|
    ensures Encode(s[4..4 + length]) == s[..4 + length]
  {
    UInt32Unique(s[..4]);
    assert s[..4 + length] == s[..4] + s[4..4 + length];
  }

  /** Prepending the frame at the front of `input` to frames read from what follows it. */
  lemma {:induction false} ConsFrame(input: seq<byte>, length: nat, later: seq<Frame>)
    requires |input| >= 4 && length == UInt32Value(input[..4])
    requires length <= MaxArrayLength && 4 + length <= |input|
    requires EncodeAll(later) <= input[4 + length..]
    ensures EncodeAll([input[4..4 + length]] + later) <= input
    ensures |EncodeAll([input[4..4 + length]] + later)| == 4 + length + |EncodeAll(later)|
    ensures input[|EncodeAll([input[4..4 + length]] + later)|..] == input[4 + length..][|EncodeAll(later)|..]
  {
    var frame: Frame := input[4..4 + length];
    var tail := input[4 + length..];
    FrameAtFront(input, length);
    assert ([frame] + later)[1..] == later;
    assert EncodeAll([frame] + later) == Encode(frame) + EncodeAll(later);
    assert input == Encode(frame) + tail;
  }

  /** The reader's promises for the stream after the first frame carry over to the whole stream. */
  lemma ReaderCons(input: seq<byte>, length: nat, end: StdinEnd, cancelAfter: Option<nat>, rest: ReaderRun)
    requires |input| >= 4 && length == UInt32Value(input[..4])
    requires length <= MaxArrayLength && 4 + length <= |input|
    requires cancelAfter != Some(0)
    requires var next := if cancelAfter.Some? then Some(cancelAfter.value - 1) else None;
             var tail := input[4 + length..];
             && EncodeAll(rest.forwarded) <= tail
             && (next.Some? ==> |rest.forwarded| <= next.value)
             && (rest.exit == ReaderCanceled <==> next == Some(|rest.forwarded|))
             && (rest.exit.ReaderEnded? ==>
                   rest.exit.end == end && !HasCompleteFrame(tail[|EncodeAll(rest.forwarded)|..]))
             && (rest.exit.ReaderEnded? ==>
                   var after := tail[|EncodeAll(rest.forwarded)|..];
                   |after| < 4 || UInt32Value(after[..4]) <= MaxArrayLength)
             && (rest.exit == ReaderFaulted ==>
                   var after := tail[|EncodeAll(rest.forwarded)|..];
                   |after| >= 4 && UInt32Value(after[..4]) > MaxArrayLength)
    ensures var r := ReaderRun([input[4..4 + length]] + rest.forwarded, rest.exit);
            && EncodeAll(r.forwarded) <= input
            && (cancelAfter.Some? ==> |r.forwarded| <= cancelAfter.value)
            && (r.exit == ReaderCanceled <==> cancelAfter == Some(|r.forwarded|))
            && (r.exit.ReaderEnded? ==>
                  r.exit.end == end && !HasCompleteFrame(input[|EncodeAll(r.forwarded)|..]))
            && (r.exit.ReaderEnded? ==>
                  var after := input[|EncodeAll(r.forwarded)|..];
                  |after| < 4 || UInt32Value(after[..4]) <= MaxArrayLength)
            && (r.exit == ReaderFaulted ==>
                  var after := input[|EncodeAll(r.forwarded)|..];
                  |after| >= 4 && UInt32Value(after[..4]) > MaxArrayLength)
  {
    ConsFrame(input, length, rest.forwarded);
  }

  /** How stdin ends: `EndOfStreamException` or `ObjectDisposedException` from a read. */
  datatype StdinEnd = EndOfStream | StdinDisposed

  /**
   Why the reader pump stopped: stdin ended (the pump requests cancellation and
   returns), the loop guard saw a cancellation, or allocating the body buffer
   threw (a declared length beyond the largest byte array), which is not caught.
   */
  datatype ReaderExit = ReaderEnded(end: StdinEnd) | ReaderCanceled | ReaderFaulted

  datatype ReaderRun = ReaderRun(forwarded: seq<Frame>, exit: ReaderExit)

  /**
   The stdin-to-socket pump. `input` is every byte stdin yields before `end`;
   each complete frame's payload is sent as one socket frame.
   */
  function ReadWriteForever(input: seq<byte>, end: StdinEnd, cancelAfter: Option<nat>): (r: ReaderRun)
    ensures EncodeAll(r.forwarded) <= input
    ensures cancelAfter.Some? ==> |r.forwarded| <= cancelAfter.value
    ensures r.exit == ReaderCanceled <==> cancelAfter == Some(|r.forwarded|)
    ensures r.exit.ReaderEnded? ==>
              r.exit.end == end && !HasCompleteFrame(input[|EncodeAll(r.forwarded)|..])
    ensures r.exit.ReaderEnded? ==>
              var rest := input[|EncodeAll(r.forwarded)|..];
              |rest| < 4 || UInt32Value(rest[..4]) <= MaxArrayLength
    ensures r.exit == ReaderFaulted ==>
              var rest := input[|EncodeAll(r.forwarded)|..];
              |rest| >= 4 && UInt32Value(rest[..4]) > MaxArrayLength
    decreases |input|
  {
    if cancelAfter == Some(0) then ReaderRun([], ReaderCanceled)
    else if |input| < 4 then ReaderRun([], ReaderEnded(end))
    else
      var length := UInt32Value(input[..4]);
      if length > MaxArrayLength then ReaderRun([], ReaderFaulted)
      else if |input| - 4 < length then ReaderRun([], ReaderEnded(end))
      else
        var frame: Frame := input[4..4 + length];
        var next := if cancelAfter.Some? then Some(cancelAfter.value - 1) else None;
        var rest := ReadWriteForever(input[4 + length..], end, next);
        ReaderCons(input, length, end, cancelAfter, rest);
        ReaderRun([frame] + rest.forwarded, rest.exit)
  }

  /** One turn of the reader loop, with no cancellation pending, over a stream that starts with a whole frame. */
  lemma ReaderStep(input: seq<byte>, end: StdinEnd)
    requires HasCompleteFrame(input)
    ensures var length := UInt32Value(input[..4]);
            var rest := ReadWriteForever(input[4 + length..], end, None);
            ReadWriteForever(input, end, None) == ReaderRun([input[4..4 + length]] + rest.forwarded, rest.exit)
  {
  }

  /** Without a whole frame at the front, the reader forwards nothing more. */
  lemma ReaderStops(input: seq<byte>, end: StdinEnd)
    requires !HasCompleteFrame(input)
    ensures ReadWriteForever(input, end, None).forwarded == []
  {
  }

  /** A stream that starts with a frame's encoding presents that frame, then what follows. */
  lemma EncodedFront(f: Frame, tail: seq<byte>)
    ensures var input := Encode(f) + tail;
            HasCompleteFrame(input) && UInt32Value(input[..4]) == |f| &&
            input[4..4 + |f|] == f && input[4 + |f|..] == tail
  {
    var input := Encode(f) + tail;
    assert input[..4] == Encode(f)[..4];
    assert input[4..4 + |f|] == Encode(f)[4..];
  }

  /** Headline round trip: the reader recovers exactly the frames whose encodings stdin carried. */
  lemma {:induction false} DecodeEncodeAll(ms: seq<Frame>, end: StdinEnd)
    ensures ReadWriteForever(EncodeAll(ms), end, None) == ReaderRun(ms, ReaderEnded(end))
  {
    assert EncodeAll(ms) + [] == EncodeAll(ms);
    DecodeWithShortTail(ms, [], end);
  }

  /** Encoded frames followed by an incomplete frame decode to just those frames. */
  lemma {:induction false} DecodeWithShortTail(ms: seq<Frame>, tail: seq<byte>, end: StdinEnd)
    requires |tail| < 4 || UInt32Value(tail[..4]) > |tail| - 4
    requires |tail| >= 4 ==> UInt32Value(tail[..4]) <= MaxArrayLength
    ensures ReadWriteForever(EncodeAll(ms) + tail, end, None) == ReaderRun(ms, ReaderEnded(end))
  {
    if |ms| == 0 {
      assert EncodeAll(ms) + tail == tail;
    } else {
      var later := EncodeAll(ms[1..]) + tail;
      assert EncodeAll(ms) + tail == Encode(ms[0]) + later;
      EncodedFront(ms[0], later);
      ReaderStep(Encode(ms[0]) + later, end);
      DecodeWithShortTail(ms[1..], tail, end);
      assert [ms[0]] + ms[1..] == ms;
    }
  }

  /** The same frame in front of a sequence and of an extension of it. */
  lemma PrefixCons(f: Frame, fa: seq<Frame>, fb: seq<Frame>)
    requires fa <= fb
    ensures [f] + fa <= [f] + fb
  {
    assert [f] + fa == ([f] + fb)[..1 + |fa|];
  }

  /** Appending bytes after a whole frame leaves that frame in front, followed by the extended tail. */
  lemma ExtendAfterFrame(a: seq<byte>, more: seq<byte>)
    requires HasCompleteFrame(a)
    ensures var b := a + more;
            var length := UInt32Value(a[..4]);
            HasCompleteFrame(b) && UInt32Value(b[..4]) == length &&
            b[4..4 + length] == a[4..4 + length] && b[4 + length..] == a[4 + length..] + more
  {
    var b := a + more;
    var length := UInt32Value(a[..4]);
    assert b[..4] == a[..4];
    assert b[4..4 + length] == a[4..4 + length];
    assert b[4 + length..] == a[4 + length..] + more;
  }

  /**
   Reading is incremental: the frames forwarded from a prefix of the stream are a
   prefix of those forwarded from the whole stream, however the bytes arrive.
   */
  lemma {:induction false} DecodeMonotone(a: seq<byte>, more: seq<byte>, end: StdinEnd)
    ensures ReadWriteForever(a, end, None).forwarded <= ReadWriteForever(a + more, end, None).forwarded
  {
    if HasCompleteFrame(a) {
      var length := UInt32Value(a[..4]);
      var tail := a[4 + length..];
      ExtendAfterFrame(a, more);
      ReaderStep(a, end);
      ReaderStep(a + more, end);
      DecodeMonotone(tail, more, end);
      PrefixCons(a[4..4 + length], ReadWriteForever(tail, end, None).forwarded,
                 ReadWriteForever(tail + more, end, None).forwarded);
    } else {
      ReaderStops(a, end);
    }
  }

  /** Outcome of one `WriteAsync` to stdout. */
  datatype StdoutWrite = Written | WriteDisposed

  /** One socket frame received by the writer pump and the outcome of its two stdout writes. */
  datatype WriterStep = WriterStep(frame: Frame, prefixWrite: StdoutWrite, bodyWrite: StdoutWrite)

  /**
   Why the writer pump stopped: it is still waiting for the next socket frame,
   the loop guard saw a cancellation, or stdout was disposed (the pump requests
   cancellation and returns).
   */
  datatype WriterExit = AwaitingFrame | WriterCanceled | StdoutClosed

  /** `delivered` counts the frames whose prefix and body were both written. */
  datatype WriterRun = WriterRun(written: seq<byte>, delivered: nat, exit: WriterExit)

  function FramesOf(steps: seq<WriterStep>): (ms: seq<Frame>)
    ensures |ms| == |steps|
    ensures forall i :: 0 <= i < |steps| ==> ms[i] == steps[i].frame
  {
    if |steps| == 0 then [] else [steps[0].frame] + FramesOf(steps[1..])
  }

  lemma FramesOfPrefix(steps: seq<WriterStep>, k: nat)
    requires k < |steps|
    ensures FramesOf(steps[..k + 1]) == FramesOf(steps[..k]) + [steps[k].frame]
  {
  }

  lemma ConsDelivered(steps: seq<WriterStep>, d: nat)
    requires d < |steps|
    ensures EncodeAll(FramesOf(steps[..d + 1])) ==
              Encode(steps[0].frame) + EncodeAll(FramesOf(steps[1..][..d]))
  {
    var later := FramesOf(steps[1..][..d]);
    assert FramesOf(steps[..d + 1]) == [steps[0].frame] + later;
    assert ([steps[0].frame] + later)[1..] == later;
  }

  /** Stdout of a writer that ends with a prefix written and its body write failing. */
  predicate DanglingPrefix(steps: seq<WriterStep>, r: WriterRun) {
    r.exit == StdoutClosed && r.delivered < |steps| && steps[r.delivered].prefixWrite == Written
  }

  /**
   What stdout holds after run `r`: the encodings of the delivered frames, then
   the bare length prefix of the next frame if its body write failed.
   */
  predicate StdoutHolds(steps: seq<WriterStep>, r: WriterRun)
    requires r.delivered <= |steps|
  {
    r.written ==
      EncodeAll(FramesOf(steps[..r.delivered])) +
      (if DanglingPrefix(steps, r) then Encode(steps[r.delivered].frame)[..4] else [])
  }

  lemma WriterCons(steps: seq<WriterStep>, rest: WriterRun)
    requires |steps| > 0 && rest.delivered < |steps|
    requires StdoutHolds(steps[1..], rest)
    ensures StdoutHolds(steps, WriterRun(Encode(steps[0].frame) + rest.written, rest.delivered + 1, rest.exit))
  {
    var r := WriterRun(Encode(steps[0].frame) + rest.written, rest.delivered + 1, rest.exit);
    ConsDelivered(steps, rest.delivered);
    assert DanglingPrefix(steps, r) <==> DanglingPrefix(steps[1..], rest);
    if DanglingPrefix(steps, r) {
      assert steps[r.delivered] == steps[1..][rest.delivered];
    }
  }

  /** A writer that delivered nothing and left no prefix behind wrote nothing. */
  lemma NothingDelivered(steps: seq<WriterStep>, exit: WriterExit)
    requires !DanglingPrefix(steps, WriterRun([], 0, exit))
    ensures StdoutHolds(steps, WriterRun([], 0, exit))
  {
    assert FramesOf(steps[..0]) == [];
  }

  /** A first body write that fails leaves only the first frame's length prefix on stdout. */
  lemma DanglingFirst(steps: seq<WriterStep>)
    requires |steps| > 0 && steps[0].prefixWrite == Written && steps[0].bodyWrite == WriteDisposed
    ensures StdoutHolds(steps, WriterRun(UInt32Bytes(|steps[0].frame|), 0, StdoutClosed))
  {
    assert Encode(steps[0].frame)[..4] == UInt32Bytes(|steps[0].frame|);
    assert FramesOf(steps[..0]) == [];
  }

  /** A fully written first step, then `d` fully written steps of the rest: `d + 1` fully written steps. */
  lemma DeliveredCons(steps: seq<WriterStep>, d: nat, exit: WriterExit)
    requires |steps| > 0 && d <= |steps| - 1
    requires steps[0].prefixWrite == Written && steps[0].bodyWrite == Written
    requires forall i :: 0 <= i < d ==> steps[1..][i].prefixWrite == Written && steps[1..][i].bodyWrite == Written
    requires exit == StdoutClosed ==>
               d < |steps| - 1 &&
               (steps[1..][d].prefixWrite == WriteDisposed || steps[1..][d].bodyWrite == WriteDisposed)
    ensures forall i :: 0 <= i < d + 1 ==> steps[i].prefixWrite == Written && steps[i].bodyWrite == Written
    ensures exit == StdoutClosed ==>
              d + 1 < |steps| &&
              (steps[d + 1].prefixWrite == WriteDisposed || steps[d + 1].bodyWrite == WriteDisposed)
  {
    forall i | 1 <= i < d + 1
      ensures steps[i].prefixWrite == Written && steps[i].bodyWrite == Written
    {
      assert steps[i] == steps[1..][i - 1];
    }
    if exit == StdoutClosed {
      assert steps[d + 1] == steps[1..][d];
    }
  }

  /**
   What the writer pump promises about a run over `steps`: it delivers a prefix
   of them, every delivered frame was written whole, it never delivers past
   the cancellation point and stops for cancellation exactly when that point
   is reached, waits only after the last
   step, stops early only at a failed write, and stdout holds what was written.
   */
  predicate WriterPromises(steps: seq<WriterStep>, cancelAfter: Option<nat>, r: WriterRun) {
    && r.delivered <= |steps|
    && (forall i :: 0 <= i < r.delivered ==>
          steps[i].prefixWrite == Written && steps[i].bodyWrite == Written)
    && (r.exit == WriterCanceled <==> cancelAfter == Some(r.delivered))
    && (cancelAfter.Some? ==> r.delivered <= cancelAfter.value)
    && (r.exit == AwaitingFrame ==> r.delivered == |steps|)
    && (r.exit == StdoutClosed ==>
          r.delivered < |steps| &&
          (steps[r.delivered].prefixWrite == WriteDisposed || steps[r.delivered].bodyWrite == WriteDisposed))
    && StdoutHolds(steps, r)
  }

  /** A fully written first frame ahead of a run over the remaining steps keeps the writer's promises. */
  lemma WriterPromisesCons(steps: seq<WriterStep>, cancelAfter: Option<nat>, rest: WriterRun)
    requires |steps| > 0 && cancelAfter != Some(0)
    requires steps[0].prefixWrite == Written && steps[0].bodyWrite == Written
    requires WriterPromises(steps[1..], if cancelAfter.Some? then Some(cancelAfter.value - 1) else None, rest)
    ensures WriterPromises(steps, cancelAfter,
                           WriterRun(Encode(steps[0].frame) + rest.written, rest.delivered + 1, rest.exit))
  {
    WriterCons(steps, rest);
    DeliveredCons(steps, rest.delivered, rest.exit);
  }

  /**
   The socket-to-stdout pump: for each frame, write the length prefix, then the
   body. A disposed stdout ends the pump, possibly after the prefix alone.
   */
  function WriteReadForever(steps: seq<WriterStep>, cancelAfter: Option<nat>): (r: WriterRun)
    ensures WriterPromises(steps, cancelAfter, r)
  {
    if cancelAfter == Some(0) then NothingDelivered(steps, WriterCanceled); WriterRun([], 0, WriterCanceled)
    else if |steps| == 0 then NothingDelivered(steps, AwaitingFrame); WriterRun([], 0, AwaitingFrame)
    else
      var s := steps[0];
      if s.prefixWrite == WriteDisposed then NothingDelivered(steps, StdoutClosed); WriterRun([], 0, StdoutClosed)
      else if s.bodyWrite == WriteDisposed then
        DanglingFirst(steps);
        WriterRun(UInt32Bytes(|s.frame|), 0, StdoutClosed)
      else
        var next := if cancelAfter.Some? then Some(cancelAfter.value - 1) else None;
        var rest := WriteReadForever(steps[1..], next);
        WriterPromisesCons(steps, cancelAfter, rest);
        WriterRun(Encode(s.frame) + rest.written, rest.delivered + 1, rest.exit)
  }

  /** Decoding what stdout holds yields the delivered frames (and an empty dangling one). */
  lemma {:induction false} StdoutDecodes(steps: seq<WriterStep>, w: WriterRun, end: StdinEnd)
    requires w.delivered <= |steps| && StdoutHolds(steps, w)
    ensures var emptyDangling := DanglingPrefix(steps, w) && |steps[w.delivered].frame| == 0;
            ReadWriteForever(w.written, end, None).forwarded ==
              FramesOf(steps[..w.delivered]) + (if emptyDangling then [steps[w.delivered].frame] else [])
  {
    var done := FramesOf(steps[..w.delivered]);
    if DanglingPrefix(steps, w) {
      var f := steps[w.delivered].frame;
      var written := EncodeAll(done) + Encode(f)[..4];
      assert w.written == written;
      if |f| == 0 {
        EmptyFrameAfter(done, f, end);
        assert ReadWriteForever(written, end, None).forwarded == done + [f];
      } else {
        NonEmptyPrefixAfter(done, f, end);
        assert ReadWriteForever(written, end, None).forwarded == done;
        assert done + [] == done;
      }
    } else {
      assert w.written == EncodeAll(done);
      DecodeEncodeAll(done, end);
      assert done + [] == done;
    }
  }

  lemma {:induction false} EmptyFrameAfter(done: seq<Frame>, f: Frame, end: StdinEnd)
    requires |f| == 0
    ensures ReadWriteForever(EncodeAll(done) + Encode(f)[..4], end, None).forwarded == done + [f]
  {
    EncodeAllAppend(done, [f]);
    assert EncodeAll([f]) == Encode(f) + EncodeAll([]);
    assert Encode(f)[..4] == Encode(f);
    DecodeEncodeAll(done + [f], end);
  }

  lemma {:induction false} NonEmptyPrefixAfter(done: seq<Frame>, f: Frame, end: StdinEnd)
    requires |f| > 0
    ensures ReadWriteForever(EncodeAll(done) + Encode(f)[..4], end, None).forwarded == done
  {
    var tail := Encode(f)[..4];
    assert UInt32Value(tail[..4]) == |f|;
    DecodeWithShortTail(done, tail, end);
  }

  /**
   Whatever the writer put on stdout, a reader of those bytes forwards exactly
   the frames that were fully delivered: a prefix left dangling by a disposed
   stdout is never surfaced as a frame (unless its frame was empty, when the
   prefix alone is the whole encoding).
   */
  lemma {:induction false} WriterOutputDecodes(steps: seq<WriterStep>, cancelAfter: Option<nat>, end: StdinEnd)
    ensures var w := WriteReadForever(steps, cancelAfter);
            var emptyDangling := DanglingPrefix(steps, w) && |steps[w.delivered].frame| == 0;
            ReadWriteForever(w.written, end, None).forwarded ==
              FramesOf(steps[..w.delivered]) + (if emptyDangling then [steps[w.delivered].frame] else [])
  {
    StdoutDecodes(steps, WriteReadForever(steps, cancelAfter), end);
  }
}

=== FILE: pipe_relay.dfy ===
/**
 The named-pipe relay (NamedPipeRPCHost/Program.cs): two pumps copy raw bytes
 between stdio and a named pipe in 4096-byte chunks, and an outer loop opens a
 fresh pipe session for as long as one of the pumps asks for a retry.

 Each pump is a function of what its environment does, one step per loop turn:
 the outcome of the read and, when bytes were read, the outcome of the write.
 A pump whose steps run out is still running. Exceptions the source does not
 catch fault the pump's task.
 */
module PipeRelay {
  import opened Common

  /** The size of the buffer each pump reads into. */
  const ChunkSize: int := 4096

  /** What one read can deliver: at most a buffer's worth of bytes. */
  type Chunk = s: seq<byte> | |s| <= ChunkSize

  /**
   One `ReadAtLeastAsync(chunk, 1, false, token)`: the bytes read (none at end
   of stream) or the exception it threw.
   */
  datatype ReadOutcome = ReadCount(bytes: Chunk) | ReadIOError | ReadDisposed | ReadCanceled

  /** One `WriteAsync` to the pipe. It is given no cancellation token, so it cannot be canceled. */
  datatype PipeWrite = PipeWritten | PipeWriteIOError | PipeWriteDisposed

  /** One `WriteAsync` to stdout, which is given the token. */
  datatype StdoutWrite = StdoutWritten | StdoutWriteDisposed | StdoutWriteIOError | StdoutWriteCanceled

  /** A turn of the stdin-to-pipe pump; `write` matters only when bytes were read. */
  datatype UpStep = UpStep(read: ReadOutcome, write: PipeWrite)

  /** A turn of the pipe-to-stdout pump; `write` matters only when bytes were read. */
  datatype DownStep = DownStep(read: ReadOutcome, write: StdoutWrite)

  /** How a pump's task completes: with its "retry" flag, or ended by an exception it does not catch. */
  datatype Completion = Returned(retry: bool) | Faulted

  /** What one loop turn does: forward the bytes and go on, or complete (requesting cancellation or not). */
  datatype Turn = Forward(bytes: Chunk) | Finish(completion: Completion, cancels: bool)

  /**
   Everything a pump did: the chunks it forwarded, how it completed (`None`
   while it is still running), and whether it requested cancellation itself.
   */
  datatype PumpRun = PumpRun(forwarded: seq<Chunk>, completion: Option<Completion>, canceled: bool)

  /** The loop shared by both pumps: forward until a turn completes the task. */
  function Pump<S>(steps: seq<S>, turn: S -> Turn): (r: PumpRun)
    ensures |r.forwarded| <= |steps|
    ensures forall i :: 0 <= i < |r.forwarded| ==> turn(steps[i]) == Forward(r.forwarded[i])
    ensures r.completion.None? <==> |r.forwarded| == |steps|
    ensures r.completion.None? ==> !r.canceled
    ensures |r.forwarded| < |steps| ==>
              turn(steps[|r.forwarded|]) == Finish(r.completion.value, r.canceled)
  {
    if |steps| == 0 then PumpRun([], None, false)
    else match turn(steps[0])
      case Finish(c, cancels) => PumpRun([], Some(c), cancels)
      case Forward(bytes) =>
        var rest := Pump(steps[1..], turn);
        assert forall i :: 1 <= i < 1 + |rest.forwarded| ==> steps[i] == steps[1..][i - 1];
        PumpRun([bytes] + rest.forwarded, rest.completion, rest.canceled)
  }

  /** One turn of `ReadWriteForever` (stdin to pipe). */
  function UpTurn(s: UpStep): Turn {
    match s.read
    case ReadDisposed => Finish(Returned(false), false)
    case ReadIOError => Finish(Faulted, false)
    case ReadCanceled => Finish(Faulted, false)
    case ReadCount(bytes) =>
      if |bytes| == 0 then Finish(Returned(false), true)
      else match s.write
        case PipeWritten => Forward(bytes)
        case PipeWriteIOError => Finish(Returned(true), false)
        case PipeWriteDisposed => Finish(Returned(true), false)
  }

  /** The bytes of a turn whose read returned data and whose write went through. */
  predicate UpDelivered(s: UpStep) {
    s.read.ReadCount? && |s.read.bytes| > 0 && s.write == PipeWritten
  }

  /**
   The stdin-to-pipe pump. Stdin ending or disposed stops it for good (`false`),
   a failed pipe write asks for a new session (`true`); only stdin's end of
   stream requests cancellation of the other pump.
   */
  function ReadWriteForever(steps: seq<UpStep>): (r: PumpRun)
    ensures |r.forwarded| <= |steps|
    ensures forall i :: 0 <= i < |r.forwarded| ==>
              UpDelivered(steps[i]) && r.forwarded[i] == steps[i].read.bytes
    ensures r.completion.None? <==> |r.forwarded| == |steps|
    ensures var n := |r.forwarded|;
            r.completion == Some(Returned(false)) <==>
              n < |steps| && (steps[n].read == ReadCount([]) || steps[n].read == ReadDisposed)
    ensures var n := |r.forwarded|;
            r.completion == Some(Returned(true)) <==>
              n < |steps| && steps[n].read.ReadCount? && |steps[n].read.bytes| > 0 &&
              steps[n].write != PipeWritten
    ensures var n := |r.forwarded|;
            r.completion == Some(Faulted) <==>
              n < |steps| && (steps[n].read == ReadIOError || steps[n].read == ReadCanceled)
    ensures r.canceled <==> |r.forwarded| < |steps| && steps[|r.forwarded|].read == ReadCount([])
  {
    Pump(steps, UpTurn)
  }

  /** One turn of `WriteReadForever` (pipe to stdout). */
  function DownTurn(s: DownStep): Turn {
    match s.read
    case ReadIOError => Finish(Returned(true), false)
    case ReadDisposed => Finish(Returned(true), false)
    case ReadCanceled => Finish(Faulted, false)
    case ReadCount(bytes) =>
      if |bytes| == 0 then Finish(Returned(true), true)
      else match s.write
        case StdoutWritten => Forward(bytes)
        case StdoutWriteDisposed => Finish(Returned(false), false)
        case StdoutWriteIOError => Finish(Faulted, false)
        case StdoutWriteCanceled => Finish(Faulted, false)
  }

  predicate DownDelivered(s: DownStep) {
    s.read.ReadCount? && |s.read.bytes| > 0 && s.write == StdoutWritten
  }

  /**
   The pipe-to-stdout pump. Any pipe failure or end of stream asks for a new
   session (`true`), a disposed stdout stops for good (`false`); only the
   pipe's end of stream requests cancellation of the other pump.
   */
  function WriteReadForever(steps: seq<DownStep>): (r: PumpRun)
    ensures |r.forwarded| <= |steps|
    ensures forall i :: 0 <= i < |r.forwarded| ==>
              DownDelivered(steps[i]) && r.forwarded[i] == steps[i].read.bytes
    ensures r.completion.None? <==> |r.forwarded| == |steps|
    ensures var n := |r.forwarded|;
            r.completion == Some(Returned(true)) <==>
              n < |steps| &&
              (steps[n].read == ReadIOError || steps[n].read == ReadDisposed || steps[n].read == ReadCount([]))
    ensures var n := |r.forwarded|;
            r.completion == Some(Returned(false)) <==>
              n < |steps| && steps[n].read.ReadCount? && |steps[n].read.bytes| > 0 &&
              steps[n].write == StdoutWriteDisposed
    ensures var n := |r.forwarded|;
            r.completion == Some(Faulted) <==>
              n < |steps| &&
              (steps[n].read == ReadCanceled ||
               (steps[n].read.ReadCount? && |steps[n].read.bytes| > 0 &&
                (steps[n].write == StdoutWriteIOError || steps[n].write == StdoutWriteCanceled)))
    ensures r.canceled <==> |r.forwarded| < |steps| && steps[|r.forwarded|].read == ReadCount([])
  {
    Pump(steps, DownTurn)
  }

  /** All bytes in a sequence of chunks, in order. */
  function Flatten(chunks: seq<Chunk>): seq<byte> {
    if |chunks| == 0 then [] else chunks[0] + Flatten(chunks[1..])
  }

  /** The bytes stdin handed over during the given turns. */
  function StdinBytes(steps: seq<UpStep>): seq<byte> {
    if |steps| == 0 then []
    else (if steps[0].read.ReadCount? then steps[0].read.bytes else []) + StdinBytes(steps[1..])
  }

  lemma {:induction false} StdinBytesAppend(a: seq<UpStep>, b: seq<UpStep>)
    ensures StdinBytes(a + b) == StdinBytes(a) + StdinBytes(b)
  {
    if |a| == 0 {
      assert a + b == b;
    } else {
      assert (a + b)[1..] == a[1..] + b;
      StdinBytesAppend(a[1..], b);
    }
  }

  /** Forwarding is exact: the pipe receives precisely the bytes of the turns that completed. */
  lemma {:induction false} ForwardedIsConsumed(steps: seq<UpStep>)
    ensures var r := ReadWriteForever(steps);
            Flatten(r.forwarded) == StdinBytes(steps[..|r.forwarded|])
    ensures forall c :: c in ReadWriteForever(steps).forwarded ==> 1 <= |c| <= ChunkSize
  {
    var r := ReadWriteForever(steps);
    ForwardedMatches(steps, r.forwarded);
  }

  lemma {:induction false} ForwardedMatches(steps: seq<UpStep>, fwd: seq<Chunk>)
    requires |fwd| <= |steps|
    requires forall i :: 0 <= i < |fwd| ==> UpDelivered(steps[i]) && fwd[i] == steps[i].read.bytes
    ensures Flatten(fwd) == StdinBytes(steps[..|fwd|])
    ensures forall c :: c in fwd ==> 1 <= |c| <= ChunkSize
  {
    if |fwd| > 0 {
      ForwardedMatches(steps[1..], fwd[1..]);
      assert steps[..|fwd|] == [steps[0]] + steps[1..][..|fwd| - 1];
      StdinBytesAppend([steps[0]], steps[1..][..|fwd| - 1]);
      assert StdinBytes([steps[0]]) == steps[0].read.bytes + StdinBytes([]);
    }
  }

  /**
   A chunk whose pipe write fails has been taken from stdin but is not
   forwarded, and the next session does not resend it: it is lost.
   */
  lemma FailedWriteDropsChunk(steps: seq<UpStep>)
    requires ReadWriteForever(steps).completion == Some(Returned(true))
    ensures var r := ReadWriteForever(steps);
            var n := |r.forwarded|;
            StdinBytes(steps[..n + 1]) == Flatten(r.forwarded) + steps[n].read.bytes &&
            |steps[n].read.bytes| > 0
  {
    var r := ReadWriteForever(steps);
    var n := |r.forwarded|;
    ForwardedIsConsumed(steps);
    assert steps[..n + 1] == steps[..n] + [steps[n]];
    StdinBytesAppend(steps[..n], [steps[n]]);
    assert StdinBytes([steps[n]]) == steps[n].read.bytes + StdinBytes([]);
  }

  /** How both pumps of one session completed, once `Task.WhenAll` has awaited them. */
  datatype SessionEnd = SessionEnd(up: Completion, down: Completion)

  /** The session's end, once both pumps have completed. */
  function SessionOf(up: PumpRun, down: PumpRun): (e: Option<SessionEnd>)
    ensures e.Some? <==> up.completion.Some? && down.completion.Some?
    ensures e.Some? ==> e.value.up == up.completion.value && e.value.down == down.completion.value
  {
    if up.completion.Some? && down.completion.Some? then
      Some(SessionEnd(up.completion.value, down.completion.value))
    else None
  }

  /** The relay is waiting in (or for) a session, has exited normally, or died of a rethrown exception. */
  datatype RelayExit = SessionActive | Exited | Crashed

  /** `sessions` counts the pipe sessions the `do … while` loop has started. */
  datatype RelayRun = RelayRun(sessions: nat, exit: RelayExit)

  /** The loop condition `rwTask.Result || wrTask.Result`, reached only when no pump faulted. */
  predicate StartsAnother(e: SessionEnd) {
    e.up.Returned? && e.down.Returned? && (e.up.retry || e.down.retry)
  }

  /**
   The outer loop, given how successive sessions end. A faulted pump makes
   `await Task.WhenAll` rethrow, which ends the program; otherwise a new session
   starts iff one pump returned `true`, even if the other saw stdin close.
   */
  function Relay(ends: seq<SessionEnd>): (r: RelayRun)
    ensures 1 <= r.sessions <= |ends| + 1
    ensures r.exit == SessionActive <==> r.sessions == |ends| + 1
    ensures forall i :: 0 <= i < r.sessions - 1 ==> StartsAnother(ends[i])
    ensures r.exit == Exited ==>
              var e := ends[r.sessions - 1];
              e.up == Returned(false) && e.down == Returned(false)
    ensures r.exit == Crashed ==>
              ends[r.sessions - 1].up == Faulted || ends[r.sessions - 1].down == Faulted
  {
    if |ends| == 0 then RelayRun(1, SessionActive)
    else
      var e := ends[0];
      if e.up == Faulted || e.down == Faulted then RelayRun(1, Crashed)
      else if e.up.retry || e.down.retry then
        var rest := Relay(ends[1..]);
        assert forall i :: 1 <= i < rest.sessions ==> ends[i] == ends[1..][i - 1];
        RelayRun(rest.sessions + 1, rest.exit)
      else RelayRun(1, Exited)
  }

  /** Session k+1 is started exactly when sessions 0..k all end with a retry and no fault. */
  lemma {:induction false} NextSessionIff(ends: seq<SessionEnd>, k: nat)
    requires k < |ends|
    ensures k + 1 < Relay(ends).sessions <==> forall j :: 0 <= j <= k ==> StartsAnother(ends[j])
  {
    if k > 0 {
      NextSessionIff(ends[1..], k - 1);
      assert forall j :: 1 <= j <= k ==> ends[j] == ends[1..][j - 1];
    }
  }

  /**
   The source's policy, not an idealised one: if stdin reaches end of stream
   while the pipe pump reports a pipe failure, the loop still opens a new session.
   */
  lemma RetryWinsOverStdinEof(up: seq<UpStep>, down: seq<DownStep>, later: seq<SessionEnd>)
    requires |up| > 0 && up[0].read == ReadCount([])
    requires |down| > 0 && down[0].read == ReadIOError
    ensures var e := SessionOf(ReadWriteForever(up), WriteReadForever(down));
            e.Some? && Relay([e.value] + later).sessions >= 2
  {
    var r := ReadWriteForever(up);
    var w := WriteReadForever(down);
    assert |r.forwarded| == 0 && |w.forwarded| == 0;
  }
}
